=== FILE: README.md ===
# Music library service — a Dafny model of its core

The service is a small HTTP/JSON catalogue of songs, each belonging to a
performing group. It has three parts this project models. `GET /info`
resolves a `(group, song)` pair: it uses the stored row if there is one.
Otherwise it asks an external lookup API, parses the release date and stores
a new row. A local enrichment file may then override the response. `GET
/song/:id/verses` splits a song's lyrics into verses on blank lines and
returns one page of them. `GET /songs` lists rows a page at a time. The
repository's `calculateOffset` and `GetAllSongs`, and the `utils.ToInt`
helper, are modelled alongside.

Each Go operation becomes a pure function over immutable data. Go library
behaviour the handlers rely on is written out explicitly:

- `strconv.Atoi` on a 64-bit `int` and `strconv.Itoa`;
- `strings.Split` and `strings.Join` on the verse separator `"\n\n"`;
- `time.Parse` and `Time.Format` with the layout `"2006-01-02"`;
- gin's `DefaultQuery`;
- 64-bit wrap-around and truncating division.

The database, the external API and the enrichment file become oracle
parameters: a `Store` value, an `Env` record, and the rows the filters select.

Modules, one per file:

- `Wrappers`: `Option` and `Result`.
- `Int64`: the range of Go's `int` and wrap-around.
- `Arith`: the page-start product and the facts about it.
- `Decimal`: `Atoi`, `Itoa` and `utils.ToInt`.
- `Dates`: the release-date layout.
- `Catalog`: rows, the store, responses, lookups and OFFSET/LIMIT.
- `Query`: how integer query parameters are read and coerced.
- `Verses`: the verses endpoint.
- `Listing`: the list endpoint's paging.
- `Repository`: `calculateOffset` and `GetAllSongs`.
- `Resolver`: `/info` with `GetSongDetailFromAPI`, `GetSongDetailFromJSON` and `enrichSongFromJSON`.

Three facts about the code shape the model:

- **Failures of `/info`.** After the parameter check, every failure of `/info` answers 500 or 400 ("invalid date format"), never 404. Each carries the exact message the handler writes.
- **Group before song.** The group is found or created before the song is looked up. So a failed resolution can still leave a new group behind (`Resolver.GroupFoundOrCreated`).
- **The group filter of `GET /songs`.** It queries a `"group"` column that the `Song` model (models/song.go) does not have; the song's group is the `group_id` foreign key. The filters are left out (see below).

## Model

| member | source | states |
|---|---|---|
| Decimal.Atoi | utils/validate.go:6-9 | Accepts exactly an optional sign followed by at least one digit whose value fits in 64 bits, and yields that value; empty input and any non-digit after the sign are errors |
| Decimal.ToInt | utils/validate.go:5-12 | The parsed value when `Atoi` succeeds; 1 for malformed and for out-of-range input |
| Decimal.AtoiItoa | utils/validate.go:6 | Round trip: every 64-bit integer printed by `Itoa` parses back to itself |
| Decimal.ItoaAtoi | utils/validate.go:6 | Round trip: a canonical numeral (no `+`, no leading zeros, no `-0`) that parses prints back to the same text |
| Decimal.ToIntItoa | utils/validate.go:5-12 | `ToInt` inverts `Itoa` on the whole 64-bit range, negatives and zero included, with no clamping |
| Decimal.ToIntNoClamp | utils/validate.go:6-11 | "0", "-5", "+7" and "007" come back as 0, -5, 7 and 7: the helper neither clamps nor rejects them |
| Decimal.ToIntRejectedIsOne | utils/validate.go:7-9 | Any input `Atoi` rejects is indistinguishable from the input "1" |
| Decimal.ToIntRejections | utils/validate.go:7-9 | "", "1 2", "-" and "x" all give 1 |
| Decimal.ToIntOutOfRange | utils/validate.go:7-9 | 10^19 and -10^19 (a one and nineteen zeros, with either sign) are out of range and give 1 |
| Decimal.ItoaCanonical | utils/validate.go:6 | Every spelling `Itoa` produces is canonical: no plus sign, no leading zero, no "-0" |
| Decimal.ItoaSpellsExactlyCanonical | utils/validate.go:6 | Within 64 bits, a text is `Itoa`'s spelling of a number exactly when it is canonical and `Atoi` reads that number from it |
| Decimal.TenToNineteenTooLarge | utils/validate.go:6 | One followed by nineteen zeros (10^19) is a digit string whose value exceeds every 64-bit `int` |
| Dates.DaysIn | controllers/hendlers.go:70 | A month has 28..31 days: 29 exactly for February of a Gregorian leap year, 28 for February otherwise, 30 for April, June, September and November |
| Dates.ParseDate | controllers/hendlers.go:69-74 | An accepted date is a valid calendar date with a year in 0..9999, read from a ten-character text with '-' at positions 4 and 7; text of any other length is rejected |
| Dates.ParseDateShape | controllers/hendlers.go:70-74 | `ParseDate` accepts exactly YYYY-MM-DD with month 01..12 and a day that exists in that month and year, and reads the three fields |
| Dates.FormatParse | controllers/hendlers.go:70-93 | Any text the parser accepts formats back to the same text, so a stored date is answered as it was supplied |
| Dates.FormatDate | controllers/hendlers.go:93 | `Format("2006-01-02")`: a valid date with a year in 0..9999 prints as ten characters with '-' at positions 4 and 7 (its round trips with `ParseDate` are the next two rows) |
| Dates.ParseFormat | controllers/hendlers.go:70-93 | Every valid date with a year in 0..9999 formats to text that parses back to it |
| Dates.LeapDay2020 | controllers/hendlers.go:70-74 | 2020-02-29 is accepted |
| Dates.LeapDay2019 | controllers/hendlers.go:70-74 | 2019-02-29 is rejected |
| Dates.LeapDay1900 | controllers/hendlers.go:70-74 | 1900-02-29 is rejected: a century is not a leap year |
| Dates.LeapDay2000 | controllers/hendlers.go:70-74 | 2000-02-29 is accepted: a multiple of 400 is a leap year |
| Dates.RejectedShapes | controllers/hendlers.go:70-74 | A one-digit month, month 13, '/' separators, trailing text and the empty text are all rejected |
| Query.PositiveOr | controllers/hendlers.go:290-298 | The coerced parameter is always at least 1. A positive number `Atoi` reads from the parameter (or its default) is taken as is; any value other than the fallback was so read; malformed text gives the fallback |
| Query.PositiveOrItoa | controllers/hendlers.go:290-298 | Every positive 64-bit number written in decimal is taken as is |
| Query.PositiveOrFallback | controllers/hendlers.go:290-298 | Zero, negatives, non-numbers and out-of-range numbers all become the fallback |
| Query.ClampUnlikeToInt | controllers/hendlers.go:216-227 | The handlers clamp "0" and "-5" to the fallback, where `utils.ToInt` returns 0 and -5 |
| Catalog.FindSong | controllers/hendlers.go:62 | The first row with the given group id and title: no earlier row has the key; absence means no row has it |
| Catalog.FindById | controllers/hendlers.go:285-288 | The first row with the given primary key; absence means no row has it |
| Catalog.Window | controllers/hendlers.go:247-250 | OFFSET/LIMIT: at most `limit` consecutive rows starting at `offset`; as many as remain when fewer than `limit` do; empty past the end |
| Catalog.WindowsAdjacent | controllers/hendlers.go:247-248 | Two adjacent windows concatenate to the window of their combined length: no overlap, no gap |
| Catalog.ConsecutiveWindows | controllers/hendlers.go:247-248 | The window that starts where a window of `limit` rows ends, joined to it, is the window of twice as many rows |
| Verses.IndexFrom | controllers/hendlers.go:300 | The leftmost occurrence of the separator at or after a position, or none when there is none |
| Verses.Split | controllers/hendlers.go:300 | Splitting always gives at least one piece, and no piece contains the separator |
| Verses.JoinSplit | controllers/hendlers.go:300 | Joining the verses with the separator gives back the song text exactly |
| Verses.SplitWellSeparated | controllers/hendlers.go:300 | The pieces are separator-free and no piece but the last ends in a newline, since the leftmost separator is always cut first |
| Verses.SplitJoin | controllers/hendlers.go:300 | Splitting the join of such well-separated pieces gives back the pieces |
| Verses.SplitEmpty | controllers/hendlers.go:300-306 | An empty text is one empty verse, not zero verses |
| Verses.TotalPages | controllers/hendlers.go:328 | The page count is the ceiling of verses over limit: n pages hold them all and n-1 do not; no verses, no pages |
| Verses.Paginate | controllers/hendlers.go:302-320 | Served exactly when the page's start is before the end. The served verses are the contiguous run at that start, between 1 and `limit` of them, fewer only at the end. `total` is the verse count |
| Verses.NoVersesUnreachable | controllers/hendlers.go:300-306 | Split lyrics always have a verse, so the handler's "no verses" branch never fires |
| Verses.ServedIffWithinTotalPages | controllers/hendlers.go:308-328 | A page is served if and only if its number is at most the reported `total_pages` |
| Verses.PagesFromSuffix | controllers/hendlers.go:308-320 | The pages from a given page onward, concatenated, are the verses from that page's start to the end |
| Verses.PagesUpToPrefix | controllers/hendlers.go:308-320 | Pages 1..n, concatenated, are the first verses up to the end of page n |
| Verses.AllPagesCoverVerses | controllers/hendlers.go:308-328 | Pages 1..`total_pages`, concatenated, are exactly the song's verses: every verse once, in order |
| Verses.ThreeVerses | controllers/hendlers.go:300 | "a\n\nb\n\nc" splits into three verses |
| Verses.ThreeVersesTwoPerPage | controllers/hendlers.go:308-328 | With two per page, that song has pages ["a","b"] and ["c"], `total_pages` 2, and page 3 is out of range |
| Arith.DivBounds | controllers/hendlers.go:328 | For a non-negative dividend, `/` gives the largest non-negative q with q*b ≤ a |
| Verses.GoDiv | controllers/hendlers.go:328 | Go's division truncates toward zero: a non-negative dividend gives the largest non-negative q with q*b ≤ a; a negative one gives the smallest non-positive q with a ≤ q*b |
| Verses.PaginateInt64 | controllers/hendlers.go:302-328 | The slicing step with 64-bit wrap-around, as written: a served page reports the true verse count |
| Verses.PaginateInt64Agrees | controllers/hendlers.go:302-328 | When `page * limit` and `total + limit` fit in 64 bits, the code as written and the model give the same outcome |
| Verses.HugePageServedAsWritten | controllers/hendlers.go:308-311 | page 4294967297 with limit 4294967296 serves a one-verse song as written; the model answers out of range |
| Verses.NegativeStartPanicsAsWritten | controllers/hendlers.go:308-320 | page 3 with limit 2^63-1 panics on the slice as written; the model answers out of range |
| Verses.NegativeTotalPagesAsWritten | controllers/hendlers.go:328 | limit 2^63-1 on two verses reports `total_pages` -1 as written; the model reports 1 |
| Verses.ServeSong | controllers/hendlers.go:290-331 | For a loaded song: 200 exactly when the coerced page is at most the song's page count, else 404. A served page echoes the id and the coerced page and limit, holds 1..limit verses of the song from the page's first index on, and reports the verse count and the page count. The page is full (`limit` verses) unless it runs to the last verse. Every 404 is "no verses found for the requested page" |
| Verses.GetSongTextWithPagination | controllers/hendlers.go:269-332 | 400 exactly when the id is not a number ("invalid song id"). Then 500 on a failed connection and 404 "not found" when no row has the id. For a found row, 200 exactly when the coerced page is at most `total_pages`, and otherwise 404 "no verses found for the requested page". A served page echoes the id and the coerced page and limit, and holds 1..limit of that row's verses from the page's first index on, with `total` and `total_pages` its verse and page counts. The page is full unless it runs to the last verse |
| Verses.FirstPageAlwaysServed | controllers/hendlers.go:290-314 | Bad `page`/`limit` values are coerced, never rejected: page 1 of any stored song is always answered 200 |
| Verses.ServedVersesAreParagraphs | controllers/hendlers.go:300-320 | Every verse in a served page is separator-free |
| Listing.ListPage | controllers/hendlers.go:216-222 | `page` is at least 1. A positive number parsed from the parameter (default "1") is taken as is; any page other than 1 was so parsed |
| Listing.ListLimit | controllers/hendlers.go:217-227 | `limit` is at least 1. A positive number parsed from the parameter (default "10") is taken as is; any limit other than 10 was so parsed |
| Listing.ListPaging | controllers/hendlers.go:216-248 | `page` and `limit` are at least 1. Positive parsed parameters are taken as they are, and a value other than the defaults 1 and 10 was parsed. The offset is the first row index of that page |
| Listing.ListOffsetAligned | controllers/hendlers.go:247 | The offset is `(page-1)*limit`: never negative, and a whole number of pages |
| Listing.ListPagingItoa | controllers/hendlers.go:216-247 | Any positive 64-bit `page` and `limit` written in decimal are read back exactly, with offset `(page-1)*limit` |
| Listing.ListDefaults | controllers/hendlers.go:216-227 | Missing, non-numeric and non-positive values give page 1 of 10 |
| Listing.ListAgreesWithCalculateOffset | controllers/hendlers.go:216-247 | The handler's inline offset equals the repository's `calculateOffset` of the parsed values |
| Listing.GetSongs | controllers/hendlers.go:199-256 | 500 exactly when the connection or the query fails. Otherwise 200 with at most `limit` rows: the matching rows from the offset on, in order, and none past the end. A page that starts before the end is full unless it reaches the last row |
| Listing.NextPageOffset | controllers/hendlers.go:247 | The next page's offset is this page's offset plus the limit |
| Listing.ListPagesAdjacent | controllers/hendlers.go:247-255 | Given the same row order for both queries, two consecutive listed pages are one window of twice the limit: no row skipped or repeated |
| Listing.ListOffsetInt64 | controllers/hendlers.go:247 | The offset as written, wrapping at 64 bits; equal to the true product when that fits |
| Listing.ListOffsetWrapsAsWritten | controllers/hendlers.go:247 | `?page=8589934592&limit=2147483648` gives offset -2^31 as written; the model's offset for those parameters is 2^64-2^31 |
| Repository.EffectivePage | repository/song_repository.go:153-155 | The page used is the given page when that is positive, and 1 otherwise |
| Repository.EffectiveLimit | repository/song_repository.go:156-158 | The limit used is the given limit when that is positive, and 10 otherwise |
| Repository.CalculateOffset | repository/song_repository.go:152-160 | Never negative; 0 for page 1 and below; `(page-1)*limit`, with limit 10 when the given one is below 1; a multiple of the limit used |
| Repository.SuccessiveOffsets | repository/song_repository.go:152-160 | Successive pages start exactly one effective limit apart |
| Repository.CalculateOffsetInt64 | repository/song_repository.go:159 | The offset as written, in 64-bit range, equal to the model's when the product fits |
| Repository.CalculateOffsetWrapsAsWritten | repository/song_repository.go:159 | `calculateOffset(8589934592, 2147483648)` is -2^31 as written; the model's is 2^64-2^31 |
| Repository.GetAllSongs | repository/song_repository.go:41-46 | The LIMIT is the raw parameter and the offset is never negative. With a positive limit the offset is `(page-1)*limit`, page below 1 counted as 1. With a limit below 1 the offset counts pages of 10, so from page 2 on it skips at least ten rows while the LIMIT is below 1 |
| Repository.RawLimitDisagrees | repository/song_repository.go:41-46 | With limit 0, page 2 skips ten rows but limits the query to zero rows |
| Repository.GetAllSongsCoerced | repository/song_repository.go:41-46 | Both bounds use the defaulted limit: LIMIT at least 1, offset `(page-1)*limit`, unchanged from the original whenever the limit is positive |
| Repository.CoercedPagesTile | repository/song_repository.go:41-46 | Each coerced page starts where the previous one ends, with the same limit |
| Resolver.DetailFromApi | controllers/hendlers.go:102-136 | An unset URL fails first, then a transport error, a non-200 status, an unreadable body and an undecodable body each with its own failure. A detail is produced exactly for a 200 reply whose body reads and decodes, and it is the decoded detail |
| Resolver.DetailFromJson | controllers/hendlers.go:138-162 | Succeeds exactly when the file's entry matches both names, returning that entry's fields. A missing or unparseable file fails with its own message |
| Resolver.Enrich | controllers/hendlers.go:164-183 | All three fields come from the file's entry on a match; otherwise the detail is untouched |
| Resolver.EnrichAgreesWithDetailFromJson | controllers/hendlers.go:138-183 | The override applies exactly what the lookup function would return, and nothing when it fails |
| Resolver.FindOrCreateGroup | controllers/hendlers.go:54-59 | The group exists afterwards. An existing group keeps its id and the store is unchanged; a new one gets the next id |
| Resolver.ResolveInGroup | controllers/hendlers.go:61-99 | Once the group is known: statuses are 200, 400 or 500, the groups are unchanged, and at most one song is appended |
| Resolver.DetailOf | controllers/hendlers.go:91-96 | The response payload of a row carries its text and link, and a date text that parses back to the row's date |
| Resolver.GetSongInfo | controllers/hendlers.go:37-100 | Missing parameters give 400 with the store unchanged. A failed connection or group lookup gives 500 "internal server error" and writes nothing. Statuses are 200, 400 or 500. Songs are only ever appended, at most one per request. Existing groups keep their ids |
| Resolver.MissingParametersFirst | controllers/hendlers.go:38-44 | With a parameter missing, the answer does not depend on the database, the API or the file, and nothing is written |
| Resolver.GroupFoundOrCreated | controllers/hendlers.go:54-59 | Once the database is reachable, the group exists afterwards, a new one with the next id, whether or not resolution succeeds |
| Resolver.StoredSongShortCircuits | controllers/hendlers.go:61-99 | A stored pair is answered from its row, enriched, whatever the API would say; nothing is written |
| Resolver.FreshGroupHasNoSongs | controllers/hendlers.go:54-62 | In a consistent store, no row belongs to the id a new group is about to get |
| Resolver.NewSongAbortsWithoutRecord | controllers/hendlers.go:64-87 | For a new pair, an API failure (500 with the API's message), an unparseable date (400 "invalid date format") or a failed insert (500 "internal server error") adds no row |
| Resolver.NewSongStored | controllers/hendlers.go:64-99 | For a new pair that resolves, exactly one row is appended, with the next id, the group's id, the parsed date and the API's text and link. The response is the API's detail, enriched |
| Resolver.OverrideNeverStored | controllers/hendlers.go:91-99 | The enrichment file never changes what is stored, nor whether the request succeeds |
| Resolver.OverrideOnMatch | controllers/hendlers.go:98 | A successful response is the file's entry when it matches, and otherwise the same as with no file at all |
| Resolver.ResolveIdempotent | controllers/hendlers.go:54-99 | Repeating a request that succeeded gives the same answer and writes nothing: no duplicate rows |
| Resolver.FindSongAppended | controllers/hendlers.go:62-88 | A row appended with a key no earlier row has is what the next lookup of that key finds |
| Resolver.PersistedSurvivesOverride | controllers/hendlers.go:61-99 | Once a new pair is stored, a later request without a matching file entry answers the API's original detail, date text included, whatever the API says then |
| Resolver.FindOrCreateKeepsWf | controllers/hendlers.go:54-59 | Finding or creating a group keeps ids fresh and unique and every row attached to a known group |
| Resolver.AppendKeepsWf | controllers/hendlers.go:76-87 | Appending a row with the next id under a known group keeps the store consistent |
| Resolver.ResolveInGroupKeepsWf | controllers/hendlers.go:61-99 | Resolving a song in a known group keeps the store consistent |
| Resolver.GetSongInfoKeepsWf | controllers/hendlers.go:37-100 | Every request keeps the store consistent |

## Left out

- The database, the external API and `song_enrichment.json` are oracle inputs (`Store`, `Env`, the rows a filter selects). Connection, query and insert failures are booleans.
- HTTP transport, JSON encoding and decoding, `url.QueryEscape` and the building of the API URL are not modelled. An API body is either a decoded `SongDetail` or undecodable.
- The where-clauses of `GET /songs` (lines 229-245 of controllers/hendlers.go) are an oracle: the sequence of matching rows. `ILIKE` matching is not modelled, nor the filter on a `"group"` column the songs table lacks.
- The other handlers (`UpdateSong`, `DeleteSong`, `CreateSong`, `PartialUpdateSong`) and the repository's other methods (`SaveSong`, `GetSongByID`, `UpdateSong`, `DeleteSong`, `PatchSong`, `FetchSongLyrics`) are not modelled. The logging in `GetAllSongs` is not modelled either.
- Concurrency is not modelled. Two simultaneous `/info` requests for the same new pair could each insert a row, since the table has no unique key on `(group_id, song)`. The model is one request at a time.
- Database connection, migration, configuration and routing (database/db.go, database/migrate.go, config/config.go, cmd/main.go) are not modelled. That includes the test server's `/info` route and gin's recovery middleware; the latter turns a slice panic into a 500 and is modelled only as the `Panicked` outcome.
- The `Group` row is a map entry from its unique name to its id. Its timestamps and those of `Song` (`CreatedAt`, `UpdatedAt`, `DeletedAt`) are not modelled, nor soft deletion and `Unscoped`.
- Lookups that fail for a reason other than absence are not modelled. The handler treats every error of the pair lookup at line 62 of controllers/hendlers.go as "not stored", and every error of the id lookup at line 285 as 404 "not found".
- Listing.ListPagesAdjacent: assumes both requests see the matching rows in the same order. The query at lines 229-250 of controllers/hendlers.go has no ORDER BY, so SQL does not promise that across two executions.
- Decimal.Atoi: returns `None` for every error and does not distinguish Go's syntax error from its range error. No caller looks at the kind.
- Dates.ParseDate: a date has no clock or time zone. Years outside 0..9999 cannot be parsed, but `Dates.FormatDate` prints any year as Go's `appendInt` does.
- Verses.Paginate: uses unbounded integers. Go computes `(page-1)*limit`, `startIndex + limit` and `total + limit - 1` in 64 bits, and each can overflow for large `page` or `limit` (two verses suffice for `total_pages`, see `Verses.NegativeTotalPagesAsWritten`). `Verses.PaginateInt64` models that arithmetic as written, and "## Findings" lists the consequences.
- Verses.GetSongTextWithPagination: follows the corrected, unbounded page arithmetic of `Verses.Paginate`, not the 64-bit wrap-around. Its contract does not hold as written for the overflowing inputs in "## Findings".
- Listing.ListPaging: the offset is the unbounded `(page-1)*limit`. As written it wraps at 64 bits (`Listing.ListOffsetInt64`, `Listing.ListOffsetWrapsAsWritten`).
- Listing.GetSongs: pages with the unbounded offset of `Listing.ListPaging`, so its window promises do not hold as written when that offset overflows.
- Repository.GetAllSongs: the offset is the unbounded `Repository.CalculateOffset`; as written it wraps at 64 bits (`Repository.CalculateOffsetWrapsAsWritten`), so `GetAllSongs(8589934592, 2147483648)` hands the store an offset of -2^31 where the model hands 2^64-2^31. What the store does with a zero LIMIT is not modelled either; only the bounds handed to it are.
- Repository.CalculateOffset: uses unbounded integers. As written, `(page - 1) * limit` is computed in 64 bits and wraps (`Repository.CalculateOffsetInt64`, `Repository.CalculateOffsetWrapsAsWritten`, and "## Findings").

## Findings

Each row has both halves in the model. The as-written member models the code
with Go's 64-bit `int`, or with the raw limit, and exhibits the input. The
corrected member uses mathematical integers, or the defaulted limit, and
carries the intended property. The endpoints (`Verses.GetSongTextWithPagination`,
`Listing.GetSongs`) use the corrected versions.

| source | as written | input that shows it | evidently intended | confidence | as-written member | corrected member |
|---|---|---|---|---|---|---|
| controllers/hendlers.go:308-311 | `startIndex := (page - 1) * limit` wraps at 64 bits | `?page=4294967297&limit=4294967296` on a one-verse song: the start wraps to 0 and the whole song is served as a page far past `total_pages` = 1 | a page past `total_pages` answers 404 | not executed; the wrap is proved, the HTTP outcome follows the handler text | Verses.HugePageServedAsWritten | Verses.ServedIffWithinTotalPages |
| controllers/hendlers.go:308-320 | a wrapped negative `startIndex` passes the `>= totalVerses` check and reaches the slice | `?page=3&limit=9223372036854775807`: the start is -2 and `verses[-2:…]` panics, a 500 from gin's recovery | 404 "no verses found for the requested page" | not executed | Verses.NegativeStartPanicsAsWritten | Verses.Paginate |
| controllers/hendlers.go:328 | `(totalVerses + limit - 1) / limit` wraps at 64 bits | `?limit=9223372036854775807` on two verses: `total_pages` is -1 | `total_pages` is the ceiling of verses over limit, here 1 | not executed | Verses.NegativeTotalPagesAsWritten | Verses.TotalPages |
| controllers/hendlers.go:247 | `offset := (pageNumber - 1) * limitNumber` wraps at 64 bits | `?page=8589934592&limit=2147483648`: the offset is -2147483648, a negative OFFSET handed to the store | the offset of that page, past every row, so an empty page | not executed | Listing.ListOffsetWrapsAsWritten | Listing.ListPaging |
| repository/song_repository.go:159 | `(page - 1) * limit` wraps at 64 bits | `calculateOffset(8589934592, 2147483648)` is -2147483648 | a non-negative offset that is a multiple of the limit | not executed | Repository.CalculateOffsetWrapsAsWritten | Repository.CalculateOffset |
| repository/song_repository.go:41-46 | the offset is computed with the defaulted limit (10 when `limit < 1`) but `Limit(limit)` receives the raw one | `GetAllSongs(2, 0)`: Offset 10, Limit 0 | both bounds use the defaulted limit, Offset 10, Limit 10 | not executed | Repository.RawLimitDisagrees | Repository.GetAllSongsCoerced |

=== FILE: arith.dfy ===
/** Facts about multiplication and remainder that the page arithmetic needs. */
module Arith {

  lemma MulMonotone(a: nat, b: nat, c: nat)
    requires a <= b
    ensures a * c <= b * c
  {
  }

  /** Euclidean division is unique: a quotient and remainder in range are the ones `/` and `%` give. */
  lemma ModUnique(a: int, l: int, q: int, r: int)
    requires l > 0 && 0 <= r < l && a == q * l + r
    ensures a % l == r
  {
    var q', r' := a / l, a % l;
    assert (q - q') * l == r' - r;
    if q - q' >= 1 {
      MulMonotone(1, q - q', l);
    } else if q' - q >= 1 {
      MulMonotone(1, q' - q, l);
    }
  }

  lemma MultipleMod(k: nat, l: int)
    requires l >= 1
    ensures (k * l) % l == 0
  {
    ModUnique(k * l, l, k, 0);
  }

  /** The quotient `/` gives for a non-negative dividend is the largest multiple of `b` that fits. */
  lemma DivBounds(a: nat, b: int)
    requires b >= 1
    ensures 0 <= a / b
    ensures (a / b) * b <= a < (a / b) * b + b
  {
    var q, r := a / b, a % b;
    assert a == q * b + r && 0 <= r < b;
  }

  /** The first row (or verse) index of `page`: `(page - 1) * limit`. */
  function PageStart(page: int, limit: int): (start: nat)
    requires page >= 1 && limit >= 1
    ensures page == 1 ==> start == 0
  {
    (page - 1) * limit
  }

  /** A page starts after a whole number of earlier pages. */
  lemma PageStartAligned(page: int, limit: int)
    requires page >= 1 && limit >= 1
    ensures PageStart(page, limit) == (page - 1) * limit
    ensures PageStart(page, limit) % limit == 0
  {
    MultipleMod(page - 1, limit);
  }

  /** Successive pages start exactly `limit` verses apart. */
  lemma PageStartStep(page: int, limit: int)
    requires page >= 1 && limit >= 1
    ensures PageStart(page + 1, limit) == PageStart(page, limit) + limit
  {
  }
}

=== FILE: catalog.dfy ===
/**
 * The catalog's data: the `Song` row, the `SongDetail` response payload, the
 * store the handlers read and write, and the HTTP responses they send.
 */
module Catalog {
  import opened Wrappers
  import opened Dates

  /** A row of the songs table. `groupId` refers to a row of the groups table. */
  datatype Song = Song(id: nat, groupId: nat, title: string, releaseDate: Date, text: string, link: string)

  /** The metadata returned by `/info` and by the external lookup API. */
  datatype SongDetail = SongDetail(releaseDate: string, text: string, link: string)

  /**
   * The relational store, as the core sees it: the groups table as a map from
   * the (unique) group name to its id, the songs table as its rows in
   * primary-key order, and the next ids the store will assign.
   */
  datatype Store = Store(groups: map<string, nat>, nextGroupId: nat, songs: seq<Song>, nextSongId: nat)

  /** What a handler writes back: `c.JSON(status, body)` or `c.String(status, message)`. */
  datatype Response<T> = Json(status: int, body: T) | Plain(status: int, message: string)

  const StatusOK := 200
  const StatusBadRequest := 400
  const StatusNotFound := 404
  const StatusInternalServerError := 500

  const InternalError: string := "internal server error"

  /** Ids are fresh, group ids unique, and rows are in primary-key order and belong to a known group. */
  ghost predicate Wf(st: Store) {
    && (forall n :: n in st.groups ==> st.groups[n] < st.nextGroupId)
    && (forall n, m :: n in st.groups && m in st.groups && n != m ==> st.groups[n] != st.groups[m])
    && (forall i :: 0 <= i < |st.songs| ==> st.songs[i].id < st.nextSongId && st.songs[i].groupId in st.groups.Values)
    && (forall i, j :: 0 <= i < j < |st.songs| ==> st.songs[i].id < st.songs[j].id)
  }

  predicate HasKey(s: Song, groupId: nat, title: string) {
    s.groupId == groupId && s.title == title
  }

  /**
   * `First(&song)` with `group_id = ? AND song = ?`: the position of the
   * first row (lowest id) with that key, searching from `from`.
   */
  function FindSong(songs: seq<Song>, groupId: nat, title: string, from: nat := 0): (r: Option<nat>)
    requires from <= |songs|
    ensures r.Some? ==> from <= r.value < |songs| && HasKey(songs[r.value], groupId, title)
    ensures r.Some? ==> forall j :: from <= j < r.value ==> !HasKey(songs[j], groupId, title)
    ensures r.None? ==> forall j :: from <= j < |songs| ==> !HasKey(songs[j], groupId, title)
    decreases |songs| - from
  {
    if from == |songs| then None
    else if HasKey(songs[from], groupId, title) then Some(from)
    else FindSong(songs, groupId, title, from + 1)
  }

  /** `First(&song, id)`: the position of the first row whose primary key is `id`. */
  function FindById(songs: seq<Song>, id: int, from: nat := 0): (r: Option<nat>)
    requires from <= |songs|
    ensures r.Some? ==> from <= r.value < |songs| && songs[r.value].id == id
    ensures r.Some? ==> forall j :: from <= j < r.value ==> songs[j].id != id
    ensures r.None? ==> forall j :: from <= j < |songs| ==> songs[j].id != id
    decreases |songs| - from
  {
    if from == |songs| then None
    else if songs[from].id == id then Some(from)
    else FindById(songs, id, from + 1)
  }

  /** SQL `OFFSET offset LIMIT limit` over rows in store order. */
  function Window(rows: seq<Song>, offset: nat, limit: nat): (w: seq<Song>)
    ensures |w| <= limit
    ensures offset >= |rows| ==> w == []
    ensures offset < |rows| ==> offset + |w| <= |rows| && w == rows[offset .. offset + |w|]
    ensures offset < |rows| ==> |w| == limit || offset + |w| == |rows|
  {
    var lo := if offset < |rows| then offset else |rows|;
    var hi := if offset + limit < |rows| then offset + limit else |rows|;
    rows[lo..hi]
  }

  /** Adjacent windows join into one: consecutive pages neither overlap nor leave a gap. */
  lemma WindowsAdjacent(rows: seq<Song>, offset: nat, a: nat, b: nat)
    ensures Window(rows, offset, a) + Window(rows, offset + a, b) == Window(rows, offset, a + b)
  {
  }

  /** The window after a window of `limit` rows, joined to it, is the window of twice as many rows. */
  lemma ConsecutiveWindows(rows: seq<Song>, offset: nat, limit: nat, next: nat)
    requires next == offset + limit
    ensures Window(rows, offset, limit) + Window(rows, next, limit) == Window(rows, offset, 2 * limit)
  {
    WindowsAdjacent(rows, offset, limit, limit);
  }
}

=== FILE: dates.dfy ===
/**
 * Calendar dates in the one layout the service uses, Go's reference layout
 * "2006-01-02": `time.Parse` with that layout and `Time.Format` back to text.
 * Time zones and clock times are not part of a release date here.
 */
module Dates {
  import opened Wrappers
  import opened Decimal

  /** A calendar date; months count from 1 (January) as in Go's `time.Month`. */
  datatype Date = Date(year: int, month: int, day: int)

  /** Gregorian leap years, as Go's `isLeap`. */
  predicate IsLeap(year: int) {
    year % 4 == 0 && (year % 100 != 0 || year % 400 == 0)
  }

  /** Days in `month` of `year`, as Go's `daysIn`. */
  function DaysIn(month: int, year: int): (n: int)
    requires 1 <= month <= 12
    ensures 28 <= n <= 31
    ensures n == 29 <==> month == 2 && IsLeap(year)
    ensures n == 28 <==> month == 2 && !IsLeap(year)
    ensures n == 30 <==> month in {4, 6, 9, 11}
  {
    if month == 2 then (if IsLeap(year) then 29 else 28)
    else if month in {4, 6, 9, 11} then 30
    else 31
  }

  predicate ValidDate(d: Date) {
    1 <= d.month <= 12 && 1 <= d.day <= DaysIn(d.month, d.year)
  }

  /** Go's `getnum(s, true)`: exactly two leading digits. */
  predicate TwoDigits(v: string) {
    |v| >= 2 && IsDigit(v[0]) && IsDigit(v[1])
  }

  function TwoDigitValue(v: string): (n: nat)
    requires TwoDigits(v)
    ensures n < 100
  {
    DigitValue(v[0]) * 10 + DigitValue(v[1])
  }

  /**
   * `time.Parse("2006-01-02", s)`, chunk by chunk as Go reads the layout:
   * a four-digit year whose first character is a digit, a literal '-', a
   * two-digit month in 1..12, a literal '-', a two-digit day, no trailing
   * text, and finally a day that exists in that month of that year.
   */
  function ParseDate(s: string): (r: Option<Date>)
    ensures r.Some? ==> ValidDate(r.value) && 0 <= r.value.year <= 9999
    ensures r.Some? ==> |s| == 10 && s[4] == '-' && s[7] == '-'
    ensures |s| != 10 ==> r.None?
  {
    if |s| < 4 || !IsDigit(s[0]) || !AllDigits(s[..4]) then None
    else
      var year := DigitsValue(s[..4]);
      DigitsValueBound(s[..4]);
      assert Pow10(4) == 10000;
      var v := s[4..];
      if |v| < 1 || v[0] != '-' then None
      else
        var v := v[1..];
        if !TwoDigits(v) then None
        else
          var month := TwoDigitValue(v);
          if month < 1 || 12 < month then None
          else
            var v := v[2..];
            if |v| < 1 || v[0] != '-' then None
            else
              var v := v[1..];
              if !TwoDigits(v) then None
              else
                var day := TwoDigitValue(v);
                if |v| > 2 then None
                else if day < 1 || day > DaysIn(month, year) then None
                else Some(Date(year, month, day))
  }

  /**
   * Go's `appendInt(b, x, width)`: a minus sign for negatives, then the
   * magnitude zero-padded to `width` digits (longer magnitudes in full).
   */
  function AppendInt(x: int, width: nat): (s: string)
    ensures 0 <= x < Pow10(width) ==> |s| == width && AllDigits(s)
  {
    var u: nat := if x < 0 then -x else x;
    (if x < 0 then "-" else "") + (if u < Pow10(width) then FixedDigits(u, width) else NatToDigits(u))
  }

  /** `Time.Format("2006-01-02")`. */
  function FormatDate(d: Date): (s: string)
    ensures ValidDate(d) && 0 <= d.year <= 9999 ==> |s| == 10 && s[4] == '-' && s[7] == '-'
  {
    assert Pow10(4) == 10000;
    AppendInt(d.year, 4) + "-" + AppendInt(d.month, 2) + "-" + AppendInt(d.day, 2)
  }

  // ---------------------------------------------------------------------------
  // The accepted shape, stated position by position

  /** Exactly YYYY-MM-DD with a month 01..12 and a day that exists in it. */
  predicate IsIsoDate(s: string) {
    && |s| == 10
    && AllDigits(s[0..4]) && s[4] == '-' && TwoDigits(s[5..7]) && s[7] == '-' && TwoDigits(s[8..10])
    && 1 <= TwoDigitValue(s[5..7]) <= 12
    && 1 <= TwoDigitValue(s[8..10]) <= DaysIn(TwoDigitValue(s[5..7]), DigitsValue(s[0..4]))
  }

  /** `ParseDate` accepts exactly the strings of that shape, and reads its three fields. */
  lemma ParseDateShape(s: string)
    ensures ParseDate(s).Some? <==> IsIsoDate(s)
    ensures IsIsoDate(s) ==> ParseDate(s) == Some(Date(DigitsValue(s[0..4]), TwoDigitValue(s[5..7]), TwoDigitValue(s[8..10])))
  {
    if |s| == 10 {
      assert s[4..][1..] == s[5..];
      assert s[5..][2..] == s[7..];
      assert s[7..][1..] == s[8..];
      assert s[5..][..2] == s[5..7];
      assert s[8..][..2] == s[8..10];
      if IsIsoDate(s) {
        assert IsDigit(s[..4][0]);
      }
    }
  }

  lemma TwoDigitFixed(v: string)
    requires TwoDigits(v) && |v| == 2
    ensures FixedDigits(TwoDigitValue(v), 2) == v
  {
    assert AllDigits(v);
    DigitsFixedValue(v);
    TwoDigitsValue(v);
    assert TwoDigitValue(v) == DigitsValue(v);
  }

  lemma FixedTwoDigit(n: nat)
    requires n < 100
    ensures TwoDigits(FixedDigits(n, 2)) && TwoDigitValue(FixedDigits(n, 2)) == n
  {
    assert Pow10(2) == 100;
    FixedDigitsValue(n, 2);
    TwoDigitsValue(FixedDigits(n, 2));
  }

  lemma AppendIntFixed(x: int, width: nat)
    requires 0 <= x < Pow10(width)
    ensures AppendInt(x, width) == FixedDigits(x, width)
  {
  }

  lemma SplitTen(s: string)
    requires |s| == 10 && s[4] == '-' && s[7] == '-'
    ensures s == s[0..4] + "-" + s[5..7] + "-" + s[8..10]
  {
  }

  /** Parse then format: an accepted string is reproduced exactly, so a response echoes the date text it was given. */
  lemma FormatParse(s: string)
    requires ParseDate(s).Some?
    ensures FormatDate(ParseDate(s).value) == s
  {
    ParseDateShape(s);
    var d := ParseDate(s).value;
    assert Pow10(4) == 10000 && Pow10(2) == 100;
    DigitsValueBound(s[0..4]);
    DigitsFixedValue(s[0..4]);
    TwoDigitFixed(s[5..7]);
    TwoDigitFixed(s[8..10]);
    AppendIntFixed(d.year, 4);
    AppendIntFixed(d.month, 2);
    AppendIntFixed(d.day, 2);
    SplitTen(s);
  }

  /** The three fields of a formatted date sit at fixed positions. */
  lemma FormatFields(d: Date)
    requires ValidDate(d) && 0 <= d.year <= 9999
    ensures FormatDate(d)[0..4] == FixedDigits(d.year, 4)
    ensures FormatDate(d)[5..7] == FixedDigits(d.month, 2)
    ensures FormatDate(d)[8..10] == FixedDigits(d.day, 2)
  {
    assert Pow10(4) == 10000 && Pow10(2) == 100;
    AppendIntFixed(d.year, 4);
    AppendIntFixed(d.month, 2);
    AppendIntFixed(d.day, 2);
    JoinTen(AppendInt(d.year, 4), AppendInt(d.month, 2), AppendInt(d.day, 2));
  }

  lemma JoinTen(y: string, m: string, d: string)
    requires |y| == 4 && |m| == 2 && |d| == 2
    ensures (y + "-" + m + "-" + d)[0..4] == y
    ensures (y + "-" + m + "-" + d)[5..7] == m
    ensures (y + "-" + m + "-" + d)[8..10] == d
  {
  }

  /** Format then parse: every valid date with a four-digit year comes back unchanged. */
  lemma ParseFormat(d: Date)
    requires ValidDate(d) && 0 <= d.year <= 9999
    ensures ParseDate(FormatDate(d)) == Some(d)
  {
    var s := FormatDate(d);
    FormatFields(d);
    assert Pow10(4) == 10000;
    FixedDigitsValue(d.year, 4);
    FixedTwoDigit(d.month);
    FixedTwoDigit(d.day);
    assert IsIsoDate(s);
    ParseDateShape(s);
  }

  /** The leap-year rules at work: divisible by 4, except centuries not divisible by 400. */
  lemma LeapDay2020()
    ensures ParseDate("2020-02-29") == Some(Date(2020, 2, 29))
  {
    var s := "2020-02-29";
    FourDigitsValue(s[0..4]);
    ParseDateShape(s);
  }

  lemma LeapDay2019()
    ensures ParseDate("2019-02-29") == None
  {
    var s := "2019-02-29";
    FourDigitsValue(s[0..4]);
    ParseDateShape(s);
  }

  lemma LeapDay1900()
    ensures ParseDate("1900-02-29") == None
  {
    var s := "1900-02-29";
    FourDigitsValue(s[0..4]);
    ParseDateShape(s);
  }

  lemma LeapDay2000()
    ensures ParseDate("2000-02-29") == Some(Date(2000, 2, 29))
  {
    var s := "2000-02-29";
    FourDigitsValue(s[0..4]);
    ParseDateShape(s);
  }

  /** Single-digit fields, a bad month, a missing separator and trailing text are all rejected. */
  lemma RejectedShapes()
    ensures ParseDate("2020-1-02") == None
    ensures ParseDate("2020-13-01") == None
    ensures ParseDate("2020/01/02") == None
    ensures ParseDate("2020-01-02x") == None
    ensures ParseDate("") == None
  {
    ParseDateShape("2020-13-01");
    ParseDateShape("2020/01/02");
  }
}

=== FILE: decimal.dfy ===
/**
 * Decimal text and Go's `strconv` conversions on a 64-bit platform:
 * `Atoi` (an optional sign followed by ASCII digits, value within `int`),
 * `Itoa`, and the repository's `utils.ToInt`, which maps every string
 * `Atoi` rejects to 1.
 */
module Decimal {
  import opened Wrappers
  import Int64

  predicate IsDigit(c: char) {
    '0' <= c <= '9'
  }

  function DigitValue(c: char): nat
    requires IsDigit(c)
  {
    c as int - '0' as int
  }

  function DigitChar(d: nat): (c: char)
    requires d < 10
    ensures IsDigit(c) && DigitValue(c) == d
  {
    ('0' as int + d) as char
  }

  predicate AllDigits(s: string) {
    forall i :: 0 <= i < |s| ==> IsDigit(s[i])
  }

  function Pow10(k: nat): (r: nat)
    ensures r >= 1
  {
    if k == 0 then 1 else 10 * Pow10(k - 1)
  }

  /** The value of a digit string, read most significant digit first. */
  function DigitsValue(s: string): nat
    requires AllDigits(s)
    decreases |s|
  {
    if |s| == 0 then 0 else DigitsValue(s[..|s| - 1]) * 10 + DigitValue(s[|s| - 1])
  }

  /** Exactly `k` digits of `n` modulo 10^k, zero-padded on the left. */
  function FixedDigits(n: nat, k: nat): (s: string)
    ensures |s| == k && AllDigits(s)
  {
    if k == 0 then [] else FixedDigits(n / 10, k - 1) + [DigitChar(n % 10)]
  }

  /** The shortest decimal spelling of `n` (no leading zero). */
  function NatToDigits(n: nat): (s: string)
    ensures |s| >= 1 && AllDigits(s)
    ensures |s| > 1 ==> s[0] != '0'
    decreases n
  {
    if n < 10 then [DigitChar(n)] else NatToDigits(n / 10) + [DigitChar(n % 10)]
  }

  /** Go's `strconv.Itoa`: a minus sign for negatives, never a plus sign. */
  function Itoa(n: int): (s: string)
    ensures |s| >= 1
    ensures s[0] == '-' <==> n < 0
  {
    if n < 0 then "-" + NatToDigits(-n) else NatToDigits(n)
  }

  predicate HasSign(s: string) {
    |s| > 0 && (s[0] == '-' || s[0] == '+')
  }

  /** `s` without its leading sign, if it has one. */
  function Unsigned(s: string): (u: string)
    ensures HasSign(s) ==> s == [s[0]] + u
    ensures !HasSign(s) ==> u == s
  {
    if HasSign(s) then s[1..] else s
  }

  /** The shape `Atoi` accepts: an optional sign followed by one or more digits. */
  predicate WellFormed(s: string) {
    |Unsigned(s)| >= 1 && AllDigits(Unsigned(s))
  }

  /** The mathematical value a well-formed string denotes. */
  function SignedValue(s: string): int
    requires WellFormed(s)
  {
    if s[0] == '-' then -(DigitsValue(Unsigned(s)) as int) else DigitsValue(Unsigned(s))
  }

  /** Go's `strconv.Atoi` for a 64-bit `int`; `None` stands for every error it returns. */
  function Atoi(s: string): (r: Option<int>)
    ensures r.Some? <==> WellFormed(s) && Int64.InRange(SignedValue(s))
    ensures r.Some? ==> r.value == SignedValue(s)
    ensures |s| == 0 ==> r.None?
    ensures (exists i :: (if HasSign(s) then 1 else 0) <= i < |s| && !IsDigit(s[i])) ==> r.None?
  {
    if |s| == 0 then None
    else
      var digits := if s[0] == '-' || s[0] == '+' then s[1..] else s;
      if |digits| == 0 || !AllDigits(digits) then None
      else
        var v := if s[0] == '-' then -(DigitsValue(digits) as int) else DigitsValue(digits);
        if Int64.InRange(v) then Some(v) else None
  }

  /** `utils.ToInt`: the value `Atoi` reads, or 1 whenever `Atoi` fails. */
  function ToInt(s: string): (r: int)
    ensures !WellFormed(s) ==> r == 1
    ensures WellFormed(s) && !Int64.InRange(SignedValue(s)) ==> r == 1
    ensures WellFormed(s) && Int64.InRange(SignedValue(s)) ==> r == SignedValue(s)
  {
    match Atoi(s)
    case Some(v) => v
    case None => 1
  }

  // ---------------------------------------------------------------------------
  // Lemmas about digit strings

  lemma {:induction false} DigitsValueBound(s: string)
    requires AllDigits(s)
    ensures DigitsValue(s) < Pow10(|s|)
    decreases |s|
  {
    if |s| > 0 {
      DigitsValueBound(s[..|s| - 1]);
    }
  }

  lemma {:induction false} FixedDigitsValue(n: nat, k: nat)
    requires n < Pow10(k)
    ensures DigitsValue(FixedDigits(n, k)) == n
    decreases k
  {
    if k > 0 {
      var s := FixedDigits(n, k);
      assert s[..k - 1] == FixedDigits(n / 10, k - 1);
      FixedDigitsValue(n / 10, k - 1);
    }
  }

  lemma {:induction false} DigitsFixedValue(s: string)
    requires AllDigits(s)
    ensures FixedDigits(DigitsValue(s), |s|) == s
    decreases |s|
  {
    if |s| > 0 {
      var p, c := s[..|s| - 1], s[|s| - 1];
      var v, d := DigitsValue(p), DigitValue(c);
      assert DigitsValue(s) == v * 10 + d;
      DivTen(v, d);
      DigitsFixedValue(p);
      calc {
        FixedDigits(DigitsValue(s), |s|);
        == FixedDigits((v * 10 + d) / 10, |p|) + [DigitChar((v * 10 + d) % 10)];
        == FixedDigits(v, |p|) + [DigitChar(d)];
        == p + [c];
      }
      assert s == p + [c];
    }
  }

  /** Appending digit `d` to `v` is undone by `/ 10` and read back by `% 10`. */
  lemma DivTen(v: nat, d: nat)
    requires d < 10
    ensures (v * 10 + d) / 10 == v && (v * 10 + d) % 10 == d
  {
  }

  lemma {:induction false} NatToDigitsValue(n: nat)
    ensures DigitsValue(NatToDigits(n)) == n
    decreases n
  {
    if n >= 10 {
      var s := NatToDigits(n);
      assert s[..|s| - 1] == NatToDigits(n / 10);
      NatToDigitsValue(n / 10);
    }
  }

  /** A two-digit string's value, digit by digit. */
  lemma TwoDigitsValue(v: string)
    requires |v| == 2 && AllDigits(v)
    ensures DigitsValue(v) == DigitValue(v[0]) * 10 + DigitValue(v[1])
  {
    assert DigitsValue(v) == DigitsValue(v[..1]) * 10 + DigitValue(v[1]);
    assert DigitsValue(v[..1]) == DigitValue(v[0]) by {
      assert v[..1][..0] == [];
    }
  }

  /** A four-digit string's value, digit by digit. */
  lemma FourDigitsValue(s: string)
    requires |s| == 4 && AllDigits(s)
    ensures DigitsValue(s) == DigitValue(s[0]) * 1000 + DigitValue(s[1]) * 100 + DigitValue(s[2]) * 10 + DigitValue(s[3])
  {
    assert DigitsValue(s) == DigitsValue(s[..3]) * 10 + DigitValue(s[3]);
    assert DigitsValue(s[..3]) == DigitsValue(s[..2]) * 10 + DigitValue(s[2]) by {
      assert s[..3][..2] == s[..2];
    }
    TwoDigitsValue(s[..2]);
  }

  lemma {:induction false} DigitsValueZero(s: string)
    requires AllDigits(s) && DigitsValue(s) == 0
    ensures forall i :: 0 <= i < |s| ==> s[i] == '0'
    decreases |s|
  {
    if |s| > 0 {
      DigitsValueZero(s[..|s| - 1]);
      assert forall i :: 0 <= i < |s| - 1 ==> s[i] == s[..|s| - 1][i];
    }
  }

  /** A digit string without a leading zero is the shortest spelling of its value. */
  lemma {:induction false} CanonicalDigits(s: string)
    requires |s| >= 1 && AllDigits(s)
    requires |s| > 1 ==> s[0] != '0'
    ensures NatToDigits(DigitsValue(s)) == s
    decreases |s|
  {
    if |s| > 1 {
      var p := s[..|s| - 1];
      if DigitsValue(p) == 0 {
        DigitsValueZero(p);
      }
      CanonicalDigits(p);
      var v := DigitsValue(p);
      var d := DigitValue(s[|s| - 1]);
      DivTen(v, d);
      assert v * 10 + d >= 10;
      assert DigitChar(d) == s[|s| - 1];
      assert s == p + [s[|s| - 1]];
    }
  }

  // ---------------------------------------------------------------------------
  // Round trips between Itoa and Atoi

  /** Every `int` survives formatting and parsing back. */
  lemma AtoiItoa(n: int)
    requires Int64.InRange(n)
    ensures Atoi(Itoa(n)) == Some(n)
  {
    var s := Itoa(n);
    if n < 0 {
      var d := NatToDigits(-n);
      assert s[0] == '-' && s[1..] == d;
      NatToDigitsValue(-n);
      assert DigitsValue(d) == -n;
    } else {
      var d := NatToDigits(n);
      assert s == d && IsDigit(s[0]);
      NatToDigitsValue(n);
      assert DigitsValue(d) == n;
    }
  }

  /** The spellings `Itoa` produces: no plus sign, no leading zero, no "-0". */
  predicate Canonical(s: string) {
    && WellFormed(s)
    && (|s| > 0 && s[0] == '+' ==> false)
    && (|Unsigned(s)| > 1 ==> Unsigned(s)[0] != '0')
    && (s[0] == '-' ==> Unsigned(s) != "0")
  }

  /** A canonical string `Atoi` accepts is exactly what `Itoa` prints for its value. */
  lemma ItoaAtoi(s: string)
    requires Canonical(s) && Atoi(s).Some?
    ensures Itoa(Atoi(s).value) == s
  {
    var u := Unsigned(s);
    CanonicalDigits(u);
    if s[0] == '-' {
      if DigitsValue(u) == 0 {
        DigitsValueZero(u);
      }
    }
  }

  /** `Itoa` only produces canonical spellings. */
  lemma ItoaCanonical(n: int)
    ensures Canonical(Itoa(n))
  {
    var s := Itoa(n);
    if n < 0 {
      assert Unsigned(s) == NatToDigits(-n);
      if NatToDigits(-n) == "0" {
        NatToDigitsValue(-n);
      }
    } else {
      assert Unsigned(s) == NatToDigits(n);
    }
  }

  /** Within `int`, `Itoa` and `Atoi` are inverse bijections between the values and their canonical spellings. */
  lemma ItoaSpellsExactlyCanonical(n: int, s: string)
    requires Int64.InRange(n)
    ensures s == Itoa(n) <==> Canonical(s) && Atoi(s) == Some(n)
  {
    if s == Itoa(n) {
      ItoaCanonical(n);
      AtoiItoa(n);
    }
    if Canonical(s) && Atoi(s) == Some(n) {
      ItoaAtoi(s);
    }
  }

  // ---------------------------------------------------------------------------
  // utils.ToInt

  /** `ToInt` gives back every `int` from its `Itoa` spelling. */
  lemma ToIntItoa(n: int)
    requires Int64.InRange(n)
    ensures ToInt(Itoa(n)) == n
  {
    AtoiItoa(n);
  }

  /** No clamping: zero and negative numbers come back as they are. */
  lemma ToIntNoClamp()
    ensures ToInt("0") == 0
    ensures ToInt("-5") == -5
    ensures ToInt("+7") == 7
    ensures ToInt("007") == 7
  {
    assert Unsigned("-5") == "5";
    assert Unsigned("+7") == "7";
    assert "007"[..2] == "00" && "00"[..1] == "0";
  }

  /** A rejected string and "1" are indistinguishable through `ToInt`. */
  lemma ToIntRejectedIsOne(s: string)
    requires Atoi(s).None?
    ensures ToInt(s) == ToInt("1")
  {
  }

  /** Empty text, embedded spaces, a bare sign and a letter are all rejected. */
  lemma ToIntRejections()
    ensures ToInt("") == 1
    ensures ToInt("1 2") == 1
    ensures ToInt("-") == 1
    ensures ToInt("x") == 1
  {
    assert !IsDigit("1 2"[1]);
    assert Unsigned("-") == "";
    assert !IsDigit("x"[0]);
  }

  lemma {:induction false} Pow10Add(a: nat, b: nat)
    ensures Pow10(a + b) == Pow10(a) * Pow10(b)
    decreases a
  {
    if a > 0 {
      Pow10Add(a - 1, b);
    }
  }

  /** A digit string that does not start with zero is at least 10^(length-1). */
  lemma {:induction false} DigitsValueLower(s: string)
    requires |s| >= 1 && AllDigits(s) && s[0] != '0'
    ensures DigitsValue(s) >= Pow10(|s| - 1)
    decreases |s|
  {
    if |s| > 1 {
      var p := s[..|s| - 1];
      DigitsValueLower(p);
    }
  }

  lemma Pow10Nineteen()
    ensures Pow10(19) == 10000000000000000000
  {
    assert Pow10(3) == 1000 && Pow10(4) == 10000;
    Pow10Add(4, 4);
    assert Pow10(8) == 100000000;
    Pow10Add(8, 8);
    assert Pow10(16) == 10000000000000000;
    Pow10Add(16, 3);
  }

  /** One followed by nineteen zeros (10^19) is beyond every 64-bit `int`. */
  lemma TenToNineteenTooLarge(big: string)
    requires big == "10000000000000000000"
    ensures AllDigits(big) && DigitsValue(big) > Int64.MaxInt64
  {
    DigitsValueLower(big);
    Pow10Nineteen();
  }

  /** One followed by nineteen zeros (10^19), with either sign, exceeds every 64-bit `int`: `ToInt` falls back to 1. */
  lemma ToIntOutOfRange()
    ensures ToInt("10000000000000000000") == 1
    ensures ToInt("-10000000000000000000") == 1
  {
    var big := "10000000000000000000";
    TenToNineteenTooLarge(big);
    assert Unsigned("-10000000000000000000") == big;
  }
}

=== FILE: int64.dfy ===
/** Go's `int` on a 64-bit platform: its range and two's-complement wrap-around. */
module Int64 {

  const MinInt64: int := -0x8000_0000_0000_0000
  const MaxInt64: int := 0x7fff_ffff_ffff_ffff
  const Modulus: int := 0x1_0000_0000_0000_0000

  predicate InRange(x: int) {
    MinInt64 <= x <= MaxInt64
  }

  /** The value Go's `int` arithmetic leaves when the exact result is `x`. */
  function Wrap(x: int): (r: int)
    ensures InRange(r)
    ensures (r - x) % Modulus == 0
    ensures InRange(x) ==> r == x
  {
    (x - MinInt64) % Modulus + MinInt64
  }
}

=== FILE: listing.dfy ===
/**
 * The paging arithmetic of `GET /songs` (`GetSongs`): `page` defaults to "1"
 * and falls back to 1, `limit` defaults to "10" and falls back to 10, and the
 * rows selected by the filters are cut at `offset = (page - 1) * limit`.
 */
module Listing {
  import opened Wrappers
  import Int64
  import Decimal
  import Query
  import Repository
  import Arith
  import opened Catalog

  datatype Paging = Paging(page: int, limit: int, offset: int)

  /** The `page` query value: default "1", and 1 for anything `Atoi` rejects or below 1. */
  function ListPage(pageQ: Option<string>): (page: int)
    ensures page >= 1
    ensures page != 1 ==> Decimal.Atoi(Query.DefaultQuery(pageQ, "1")) == Some(page)
    ensures Decimal.Atoi(Query.DefaultQuery(pageQ, "1")).Some? && Decimal.Atoi(Query.DefaultQuery(pageQ, "1")).value >= 1 ==>
      page == Decimal.Atoi(Query.DefaultQuery(pageQ, "1")).value
  {
    Query.PositiveOr(pageQ, "1", 1)
  }

  /** The `limit` query value: default "10", and 10 for anything `Atoi` rejects or below 1. */
  function ListLimit(limitQ: Option<string>): (limit: int)
    ensures limit >= 1
    ensures limit != 10 ==> Decimal.Atoi(Query.DefaultQuery(limitQ, "10")) == Some(limit)
    ensures Decimal.Atoi(Query.DefaultQuery(limitQ, "10")).Some? && Decimal.Atoi(Query.DefaultQuery(limitQ, "10")).value >= 1 ==>
      limit == Decimal.Atoi(Query.DefaultQuery(limitQ, "10")).value
  {
    Query.PositiveOr(limitQ, "10", 10)
  }

  /** Lines 216-227 and 247 of the handler. */
  function ListPaging(pageQ: Option<string>, limitQ: Option<string>): (p: Paging)
    ensures p.page == ListPage(pageQ) && p.limit == ListLimit(limitQ)
    ensures p.page >= 1 && p.limit >= 1
    ensures p.offset == Arith.PageStart(p.page, p.limit)
    ensures p.page != 1 ==> Decimal.Atoi(Query.DefaultQuery(pageQ, "1")) == Some(p.page)
    ensures p.limit != 10 ==> Decimal.Atoi(Query.DefaultQuery(limitQ, "10")) == Some(p.limit)
    ensures Decimal.Atoi(Query.DefaultQuery(pageQ, "1")).Some? && Decimal.Atoi(Query.DefaultQuery(pageQ, "1")).value >= 1 ==>
      p.page == Decimal.Atoi(Query.DefaultQuery(pageQ, "1")).value
    ensures Decimal.Atoi(Query.DefaultQuery(limitQ, "10")).Some? && Decimal.Atoi(Query.DefaultQuery(limitQ, "10")).value >= 1 ==>
      p.limit == Decimal.Atoi(Query.DefaultQuery(limitQ, "10")).value
  {
    var page := ListPage(pageQ);
    var limit := ListLimit(limitQ);
    Paging(page, limit, Arith.PageStart(page, limit))
  }

  /** The offset skips exactly the rows of the earlier pages: never negative, and a whole number of pages. */
  lemma ListOffsetAligned(pageQ: Option<string>, limitQ: Option<string>)
    ensures var p := ListPaging(pageQ, limitQ);
            p.offset >= 0 && p.offset == (p.page - 1) * p.limit && p.offset % p.limit == 0
  {
    var p := ListPaging(pageQ, limitQ);
    Arith.PageStartAligned(p.page, p.limit);
  }

  /** Missing, non-numeric and non-positive values all give the defaults, page 1 of 10. */
  lemma ListDefaults(pageQ: Option<string>, limitQ: Option<string>)
    requires pageQ.None? || Decimal.Atoi(pageQ.value).None? || Decimal.Atoi(pageQ.value).value < 1
    requires limitQ.None? || Decimal.Atoi(limitQ.value).None? || Decimal.Atoi(limitQ.value).value < 1
    ensures ListPaging(pageQ, limitQ) == Paging(1, 10, 0)
  {
    assert Decimal.Unsigned("10") == "10" && "10"[..1] == "1";
  }

  /** The handler's inline offset is the repository's `calculateOffset` of the parsed values. */
  lemma ListAgreesWithCalculateOffset(pageQ: Option<string>, limitQ: Option<string>)
    ensures ListPaging(pageQ, limitQ).offset ==
      Repository.CalculateOffset(Decimal.Atoi(Query.DefaultQuery(pageQ, "1")).GetOr(1),
                                 Decimal.Atoi(Query.DefaultQuery(limitQ, "10")).GetOr(10))
  {
    var page := Decimal.Atoi(Query.DefaultQuery(pageQ, "1")).GetOr(1);
    var limit := Decimal.Atoi(Query.DefaultQuery(limitQ, "10")).GetOr(10);
    var p := ListPaging(pageQ, limitQ);
    assert p.page == Repository.EffectivePage(page);
    assert p.limit == Repository.EffectiveLimit(limit);
  }

  /**
   * `GetSongs` after the filters: `matching` stands for the rows the
   * where-clauses select, in store order; `connectFails` and `findFails` for
   * a failed connection and a failed query.
   */
  function GetSongs(connectFails: bool, findFails: bool, matching: seq<Song>,
                    pageQ: Option<string>, limitQ: Option<string>): (r: Response<seq<Song>>)
    ensures connectFails || findFails <==> r == Plain(StatusInternalServerError, InternalError)
    ensures !connectFails && !findFails ==> r.Json?
    ensures r.Json? && ListPaging(pageQ, limitQ).offset < |matching| ==>
      |r.body| == ListPaging(pageQ, limitQ).limit || ListPaging(pageQ, limitQ).offset + |r.body| == |matching|
    ensures r.Json? ==> r.status == StatusOK && |r.body| <= ListPaging(pageQ, limitQ).limit
    ensures r.Json? ==> forall k :: 0 <= k < |r.body| ==> ListPaging(pageQ, limitQ).offset + k < |matching| && r.body[k] == matching[ListPaging(pageQ, limitQ).offset + k]
    ensures r.Json? && ListPaging(pageQ, limitQ).offset >= |matching| ==> r.body == []
  {
    if connectFails then Plain(StatusInternalServerError, InternalError)
    else
      var p := ListPaging(pageQ, limitQ);
      if findFails then Plain(StatusInternalServerError, InternalError)
      else Json(StatusOK, Window(matching, p.offset, p.limit))
  }

  /** The page after a listed page starts exactly one limit further on. */
  lemma NextPageOffset(pageQ: Option<string>, nextQ: Option<string>, limitQ: Option<string>)
    requires ListPaging(nextQ, limitQ).page == ListPaging(pageQ, limitQ).page + 1
    ensures ListPaging(nextQ, limitQ).offset == ListPaging(pageQ, limitQ).offset + ListPaging(pageQ, limitQ).limit
  {
    var p := ListPaging(pageQ, limitQ);
    var q := ListPaging(nextQ, limitQ);
    assert q.limit == ListLimit(limitQ) == p.limit;
    Arith.PageStartStep(p.page, p.limit);
  }

  /** The page after any listed page continues exactly where it stopped. */
  lemma ListPagesAdjacent(matching: seq<Song>, pageQ: Option<string>, nextQ: Option<string>, limitQ: Option<string>)
    requires ListPaging(nextQ, limitQ).page == ListPaging(pageQ, limitQ).page + 1
    ensures GetSongs(false, false, matching, pageQ, limitQ).body + GetSongs(false, false, matching, nextQ, limitQ).body ==
            Window(matching, ListPaging(pageQ, limitQ).offset, 2 * ListPaging(pageQ, limitQ).limit)
  {
    var p := ListPaging(pageQ, limitQ);
    var q := ListPaging(nextQ, limitQ);
    NextPageOffset(pageQ, nextQ, limitQ);
    var a := GetSongs(false, false, matching, pageQ, limitQ).body;
    var b := GetSongs(false, false, matching, nextQ, limitQ).body;
    assert a == Window(matching, p.offset, p.limit);
    assert b == Window(matching, q.offset, q.limit);
    ConsecutiveWindows(matching, p.offset, p.limit, q.offset);
  }

  /** Line 247 as written: the product wraps at 64 bits. */
  function ListOffsetInt64(page: int, limit: int): (r: int)
    requires 1 <= page <= Int64.MaxInt64 && 1 <= limit <= Int64.MaxInt64
    ensures Int64.InRange(r)
    ensures (page - 1) * limit <= Int64.MaxInt64 ==> r == (page - 1) * limit
  {
    Int64.Wrap(Arith.PageStart(page, limit))
  }

  /** Any positive 64-bit `page` and `limit` written in decimal are read back exactly, and the offset is their true product. */
  lemma ListPagingItoa(page: int, limit: int)
    requires 1 <= page <= Int64.MaxInt64 && 1 <= limit <= Int64.MaxInt64
    ensures ListPaging(Some(Decimal.Itoa(page)), Some(Decimal.Itoa(limit))) == Paging(page, limit, (page - 1) * limit)
  {
    Query.PositiveOrItoa(page, "1", 1);
    Query.PositiveOrItoa(limit, "10", 10);
  }

  /** `?page=8589934592&limit=2147483648`: the offset wraps to -2^31, and a negative OFFSET is handed to the store. */
  lemma ListOffsetWrapsAsWritten(page: int, limit: int)
    requires page == 8589934592 && limit == 2147483648
    ensures ListOffsetInt64(page, limit) == -2147483648
    ensures ListPaging(Some(Decimal.Itoa(page)), Some(Decimal.Itoa(limit))).offset == 18446744071562067968
  {
    assert ListOffsetInt64(8589934592, 2147483648) == -2147483648;
    ListPagingItoa(page, limit);
  }
}

=== FILE: query.dfy ===
/**
 * How the handlers read integer query parameters: gin's `c.DefaultQuery`
 * followed by `strconv.Atoi`, with a parse error or a value below 1
 * replaced by a fallback instead of rejecting the request.
 */
module Query {
  import opened Wrappers
  import opened Decimal
  import Int64

  /** gin's `c.DefaultQuery`: the parameter's value when present (even if empty), else the default. */
  function DefaultQuery(q: Option<string>, default: string): string {
    q.GetOr(default)
  }

  /**
   * `n, err := strconv.Atoi(c.DefaultQuery(key, default)); if err != nil || n < 1 { n = fallback }`.
   */
  function PositiveOr(q: Option<string>, default: string, fallback: int): (n: int)
    requires fallback >= 1
    ensures n >= 1
    ensures n != fallback ==> Atoi(DefaultQuery(q, default)) == Some(n)
    ensures Atoi(DefaultQuery(q, default)).Some? && Atoi(DefaultQuery(q, default)).value >= 1 ==>
      n == Atoi(DefaultQuery(q, default)).value
    ensures !WellFormed(DefaultQuery(q, default)) ==> n == fallback
  {
    match Atoi(DefaultQuery(q, default))
    case Some(v) => if v < 1 then fallback else v
    case None => fallback
  }

  /** Every positive `int` written as `Itoa` writes it is taken as is. */
  lemma PositiveOrItoa(n: int, default: string, fallback: int)
    requires 1 <= n <= Int64.MaxInt64 && fallback >= 1
    ensures PositiveOr(Some(Itoa(n)), default, fallback) == n
  {
    AtoiItoa(n);
  }

  /** Zero, negatives, non-numbers and out-of-range numbers all become the fallback. */
  lemma PositiveOrFallback(s: string, default: string, fallback: int)
    requires fallback >= 1
    requires Atoi(s).None? || Atoi(s).value < 1
    ensures PositiveOr(Some(s), default, fallback) == fallback
  {
  }

  /** Unlike `utils.ToInt`, the handlers clamp: "0" and "-5" become the fallback. */
  lemma ClampUnlikeToInt()
    ensures PositiveOr(Some("0"), "1", 1) == 1 && ToInt("0") == 0
    ensures PositiveOr(Some("-5"), "10", 10) == 10 && ToInt("-5") == -5
  {
    ToIntNoClamp();
  }
}

=== FILE: repository.dfy ===
/**
 * The arithmetic of the song repository: `calculateOffset` and the query
 * bounds `GetAllSongs` hands to the store. The repository's other methods
 * are plain store calls and are not modelled.
 */
module Repository {
  import Int64
  import Arith

  /** `if page < 1 { page = 1 }`. */
  function EffectivePage(page: int): (p: int)
    ensures p >= 1
    ensures page >= 1 ==> p == page
    ensures page < 1 ==> p == 1
  {
    if page < 1 then 1 else page
  }

  /** `if limit < 1 { limit = 10 }`. */
  function EffectiveLimit(limit: int): (l: int)
    ensures l >= 1
    ensures limit >= 1 ==> l == limit
    ensures limit < 1 ==> l == 10
  {
    if limit < 1 then 10 else limit
  }

  /** `calculateOffset`: the number of rows before `page`, pages being `limit` rows (10 if `limit` < 1). */
  function CalculateOffset(page: int, limit: int): (r: int)
    ensures r >= 0
    ensures page <= 1 ==> r == 0
    ensures page >= 1 && limit >= 1 ==> r == (page - 1) * limit
    ensures page >= 1 && limit < 1 ==> r == (page - 1) * 10
    ensures r % EffectiveLimit(limit) == 0
  {
    var page := EffectivePage(page);
    var limit := EffectiveLimit(limit);
    Arith.PageStartAligned(page, limit);
    Arith.PageStart(page, limit)
  }

  /** Successive pages start exactly one effective limit apart. */
  lemma SuccessiveOffsets(page: int, limit: int)
    requires page >= 1
    ensures CalculateOffset(page + 1, limit) == CalculateOffset(page, limit) + EffectiveLimit(limit)
  {
  }

  /** `calculateOffset` as written, where the product wraps at 64 bits. */
  function CalculateOffsetInt64(page: int, limit: int): (r: int)
    requires Int64.InRange(page) && Int64.InRange(limit)
    ensures Int64.InRange(r)
    ensures (page - 1) * limit <= Int64.MaxInt64 && page >= 1 && limit >= 1 ==> r == CalculateOffset(page, limit)
  {
    var page := if page < 1 then 1 else page;
    var limit := if limit < 1 then 10 else limit;
    Int64.Wrap((page - 1) * limit)
  }

  /** `calculateOffset(8589934592, 2147483648)` is (2^33 - 1) * 2^31 = 2^64 - 2^31, which wraps to a negative offset. */
  lemma CalculateOffsetWrapsAsWritten()
    ensures CalculateOffsetInt64(8589934592, 2147483648) == -2147483648
    ensures CalculateOffset(8589934592, 2147483648) == 18446744071562067968
  {
  }

  /** The `Offset` and `Limit` a query is given. */
  datatype Bounds = Bounds(offset: int, limit: int)

  /**
   * `GetAllSongs` as written except for the 64-bit offset: the offset uses the
   * defaulted limit, the query bound the raw one.
   */
  function GetAllSongs(page: int, limit: int): (b: Bounds)
    ensures b.offset >= 0 && b.limit == limit
    ensures limit >= 1 ==> b.offset == (EffectivePage(page) - 1) * b.limit
    ensures limit < 1 ==> b.offset == (EffectivePage(page) - 1) * 10
    ensures page >= 2 && limit < 1 ==> b.offset >= 10 && b.limit < 1
  {
    Bounds(CalculateOffset(page, limit), limit)
  }

  /** With `limit` 0 the second page skips ten rows but asks for none: the two limits disagree. */
  lemma RawLimitDisagrees()
    ensures GetAllSongs(2, 0) == Bounds(10, 0)
    ensures GetAllSongs(2, 0).offset != (EffectivePage(2) - 1) * GetAllSongs(2, 0).limit
  {
  }

  /** `GetAllSongs` with the defaulted limit used for both bounds. */
  function GetAllSongsCoerced(page: int, limit: int): (b: Bounds)
    ensures b.limit >= 1
    ensures b.offset == (EffectivePage(page) - 1) * b.limit
    ensures limit >= 1 ==> b == GetAllSongs(page, limit)
  {
    Bounds(CalculateOffset(page, limit), EffectiveLimit(limit))
  }

  /** Each coerced page starts where the previous one ends. */
  lemma CoercedPagesTile(page: int, limit: int)
    requires page >= 1
    ensures GetAllSongsCoerced(page + 1, limit).offset == GetAllSongsCoerced(page, limit).offset + GetAllSongsCoerced(page, limit).limit
    ensures GetAllSongsCoerced(page + 1, limit).limit == GetAllSongsCoerced(page, limit).limit
  {
    SuccessiveOffsets(page, limit);
  }
}

=== FILE: resolver.dfy ===
/**
 * The song-info resolution chain behind `GET /info` (`GetSongInfo`): check
 * the parameters, find or create the group, use a stored song if there is
 * one, otherwise ask the external API, parse its release date and store a
 * new song; finally let the local enrichment file override the response.
 * The database, the API and the file are oracle inputs (`Env`).
 */
module Resolver {
  import opened Wrappers
  import opened Dates
  import opened Catalog

  /** The shape of `song_enrichment.json`. */
  datatype SongEnrichment = SongEnrichment(group: string, song: string, releaseDate: string, text: string, link: string)

  /** What reading and decoding `song_enrichment.json` gives. */
  datatype EnrichmentFile = Missing | Unparseable | Entry(entry: SongEnrichment)

  /** How reading the API's response body ends: a read error, or bytes that do (`Some`) or do not (`None`) decode. */
  datatype BodyRead = ReadError | Body(json: Option<SongDetail>)

  /** What one `http.Get` of the API's `/info` yields. */
  datatype ApiReply = TransportError | Reply(status: int, body: BodyRead)

  /** Why `GetSongDetailFromAPI` gave up. */
  datatype ApiFailure = UrlUnset | CallFailed | BadStatus | ReadFailed | Malformed

  function ApiFailureMessage(f: ApiFailure): string {
    match f
    case UrlUnset => "internal server error: EXTERNAL_API_URL not set"
    case CallFailed => "internal server error: failed to call external API"
    case BadStatus => "failed to retrieve song details from external API"
    case ReadFailed => InternalError
    case Malformed => InternalError
  }

  /**
   * `GetSongDetailFromAPI`: `apiUrl` is `EXTERNAL_API_URL` ("" when unset).
   * Only a 200 reply whose body reads and decodes gives a detail.
   */
  function DetailFromApi(apiUrl: string, reply: ApiReply): (r: Result<SongDetail, ApiFailure>)
    ensures apiUrl == "" ==> r == Failure(UrlUnset)
    ensures apiUrl != "" && reply.TransportError? ==> r == Failure(CallFailed)
    ensures apiUrl != "" && reply.Reply? && reply.status != StatusOK ==> r == Failure(BadStatus)
    ensures apiUrl != "" && reply.Reply? && reply.status == StatusOK && reply.body.ReadError? ==> r == Failure(ReadFailed)
    ensures apiUrl != "" && reply.Reply? && reply.status == StatusOK && reply.body == Body(None) ==> r == Failure(Malformed)
    ensures r.Success? <==> apiUrl != "" && reply.Reply? && reply.status == StatusOK && reply.body.Body? && reply.body.json.Some?
    ensures r.Success? ==> r.value == reply.body.json.value
  {
    if apiUrl == "" then Failure(UrlUnset)
    else
      match reply
      case TransportError => Failure(CallFailed)
      case Reply(status, body) =>
        if status != StatusOK then Failure(BadStatus)
        else
          match body
          case ReadError => Failure(ReadFailed)
          case Body(None) => Failure(Malformed)
          case Body(Some(d)) => Success(d)
  }

  /** The file holds an entry for exactly this group and song. */
  predicate Matches(file: EnrichmentFile, group: string, song: string) {
    file.Entry? && file.entry.group == group && file.entry.song == song
  }

  function EntryDetail(e: SongEnrichment): SongDetail {
    SongDetail(e.releaseDate, e.text, e.link)
  }

  /** `GetSongDetailFromJSON`: the file's entry when both names match, an error otherwise. */
  function DetailFromJson(file: EnrichmentFile, group: string, song: string): (r: Result<SongDetail, string>)
    ensures r.Success? <==> Matches(file, group, song)
    ensures r.Success? ==> r.value == EntryDetail(file.entry)
    ensures file.Missing? ==> r == Failure("could not open JSON file")
    ensures file.Unparseable? ==> r == Failure("could not parse JSON file")
  {
    match file
    case Missing => Failure("could not open JSON file")
    case Unparseable => Failure("could not parse JSON file")
    case Entry(e) =>
      if e.group == group && e.song == song then Success(EntryDetail(e))
      else Failure("song not found")
  }

  /** `enrichSongFromJSON`: all three fields replaced on a match, the detail untouched otherwise. */
  function Enrich(d: SongDetail, group: string, song: string, file: EnrichmentFile): (r: SongDetail)
    ensures Matches(file, group, song) ==> r == EntryDetail(file.entry)
    ensures !Matches(file, group, song) ==> r == d
  {
    match file
    case Entry(e) =>
      if e.group == group && e.song == song then
        d.(releaseDate := e.releaseDate, text := e.text, link := e.link)
      else d
    case _ => d
  }

  /** The override and the lookup agree: `Enrich` applies exactly what `DetailFromJson` finds. */
  lemma EnrichAgreesWithDetailFromJson(d: SongDetail, group: string, song: string, file: EnrichmentFile)
    ensures Enrich(d, group, song, file) == DetailFromJson(file, group, song).GetOr(d)
  {
  }

  /** The environment of one request. */
  datatype Env = Env(
    connectFails: bool,       // `dbInstance.Connect()` errs
    groupFails: bool,         // `FirstOrCreate` on the group errs
    createFails: bool,        // `Create` of the new song errs
    apiUrl: string,           // `EXTERNAL_API_URL`, "" when unset
    api: ApiReply,            // the external API's answer to this request
    file: EnrichmentFile)     // `song_enrichment.json`

  datatype Outcome = Outcome(response: Response<SongDetail>, store: Store)

  const MissingParameters: string := "bad request: missing required parameters"
  const InvalidDateFormat: string := "invalid date format"

  /** `FirstOrCreate(&group, Group{Name: name})`: the existing id, or a new group with the next id. */
  function FindOrCreateGroup(st: Store, name: string): (r: (Store, nat))
    ensures name in r.0.groups && r.0.groups[name] == r.1
    ensures name in st.groups ==> r == (st, st.groups[name])
    ensures name !in st.groups ==> r.1 == st.nextGroupId && r.0 == st.(groups := st.groups[name := st.nextGroupId], nextGroupId := st.nextGroupId + 1)
  {
    if name in st.groups then (st, st.groups[name])
    else (st.(groups := st.groups[name := st.nextGroupId], nextGroupId := st.nextGroupId + 1), st.nextGroupId)
  }

  /** The response payload built from a stored row. */
  function DetailOf(s: Song): (d: SongDetail)
    ensures d.text == s.text && d.link == s.link
    ensures ValidDate(s.releaseDate) && 0 <= s.releaseDate.year <= 9999 ==> ParseDate(d.releaseDate) == Some(s.releaseDate)
  {
    var d := SongDetail(FormatDate(s.releaseDate), s.text, s.link);
    if ValidDate(s.releaseDate) && 0 <= s.releaseDate.year <= 9999 then
      ParseFormat(s.releaseDate);
      d
    else d
  }

  /** `GetSongInfo` as one step over the store. */
  function GetSongInfo(st: Store, env: Env, group: string, song: string): (o: Outcome)
    ensures group == "" || song == "" ==> o == Outcome(Plain(StatusBadRequest, MissingParameters), st)
    ensures group != "" && song != "" && (env.connectFails || env.groupFails) ==>
      o == Outcome(Plain(StatusInternalServerError, InternalError), st)
    ensures o.response.Json? ==> o.response.status == StatusOK
    ensures o.response.Plain? ==> o.response.status in {StatusBadRequest, StatusInternalServerError}
    ensures st.songs <= o.store.songs && |o.store.songs| <= |st.songs| + 1
    ensures forall n :: n in st.groups ==> n in o.store.groups && o.store.groups[n] == st.groups[n]
  {
    if group == "" || song == "" then Outcome(Plain(StatusBadRequest, MissingParameters), st)
    else if env.connectFails || env.groupFails then Outcome(Plain(StatusInternalServerError, InternalError), st)
    else
      var (st1, gid) := FindOrCreateGroup(st, group);
      ResolveInGroup(st1, env, gid, group, song)
  }

  /** The rest of `GetSongInfo` once the group has id `gid`: the stored song, or the API's detail stored as a new row. */
  function ResolveInGroup(st: Store, env: Env, gid: nat, group: string, song: string): (o: Outcome)
    ensures o.response.Json? ==> o.response.status == StatusOK
    ensures o.response.Plain? ==> o.response.status in {StatusBadRequest, StatusInternalServerError}
    ensures o.store.groups == st.groups
    ensures st.songs <= o.store.songs && |o.store.songs| <= |st.songs| + 1
  {
    match FindSong(st.songs, gid, song)
    case Some(i) => Outcome(Json(StatusOK, Enrich(DetailOf(st.songs[i]), group, song, env.file)), st)
    case None =>
      match DetailFromApi(env.apiUrl, env.api)
      case Failure(f) => Outcome(Plain(StatusInternalServerError, ApiFailureMessage(f)), st)
      case Success(d) =>
        match ParseDate(d.releaseDate)
        case None => Outcome(Plain(StatusBadRequest, InvalidDateFormat), st)
        case Some(date) =>
          if env.createFails then Outcome(Plain(StatusInternalServerError, InternalError), st)
          else
            var s := Song(st.nextSongId, gid, song, date, d.text, d.link);
            Outcome(Json(StatusOK, Enrich(DetailOf(s), group, song, env.file)),
                    st.(songs := st.songs + [s], nextSongId := st.nextSongId + 1))
  }

  // ---------------------------------------------------------------------------
  // The order of the steps

  /** The pair is already stored under the group's existing id. */
  predicate Stored(st: Store, group: string, song: string) {
    group in st.groups && FindSong(st.songs, st.groups[group], song).Some?
  }

  /** Missing parameters are rejected before the store, the API or the file is consulted. */
  lemma MissingParametersFirst(st: Store, env1: Env, env2: Env, group: string, song: string)
    requires group == "" || song == ""
    ensures GetSongInfo(st, env1, group, song) == GetSongInfo(st, env2, group, song)
    ensures GetSongInfo(st, env1, group, song).store == st
  {
  }

  /** Once the database is reachable, the group exists afterwards with a stable id, whether or not resolution succeeds. */
  lemma GroupFoundOrCreated(st: Store, env: Env, group: string, song: string)
    requires group != "" && song != "" && !env.connectFails && !env.groupFails
    ensures group in GetSongInfo(st, env, group, song).store.groups
    ensures group !in st.groups ==> GetSongInfo(st, env, group, song).store.groups[group] == st.nextGroupId
  {
  }

  /** A stored pair short-circuits the API: the API, its URL and song creation play no part, and nothing is written. */
  lemma StoredSongShortCircuits(st: Store, env1: Env, env2: Env, group: string, song: string)
    requires group != "" && song != "" && Stored(st, group, song)
    requires env1.connectFails == env2.connectFails && env1.groupFails == env2.groupFails && env1.file == env2.file
    ensures GetSongInfo(st, env1, group, song) == GetSongInfo(st, env2, group, song)
    ensures GetSongInfo(st, env1, group, song).store == st
    ensures !env1.connectFails && !env1.groupFails ==>
      GetSongInfo(st, env1, group, song).response ==
      Json(StatusOK, Enrich(DetailOf(st.songs[FindSong(st.songs, st.groups[group], song).value]), group, song, env1.file))
  {
  }

  /** In a well-formed store a group that does not exist yet has no songs under the id it will get. */
  lemma FreshGroupHasNoSongs(st: Store, song: string)
    requires Wf(st)
    ensures FindSong(st.songs, st.nextGroupId, song).None?
  {
    forall i | 0 <= i < |st.songs|
      ensures st.songs[i].groupId != st.nextGroupId
    {
      assert st.songs[i].groupId in st.groups.Values;
      var n :| n in st.groups && st.groups[n] == st.songs[i].groupId;
    }
  }

  /** For a new pair, every API failure, an unparseable date or a failed insert leaves the songs untouched. */
  lemma NewSongAbortsWithoutRecord(st: Store, env: Env, group: string, song: string)
    requires Wf(st) && group != "" && song != "" && !Stored(st, group, song)
    requires || DetailFromApi(env.apiUrl, env.api).Failure?
             || ParseDate(DetailFromApi(env.apiUrl, env.api).value.releaseDate).None?
             || env.createFails
    ensures GetSongInfo(st, env, group, song).store.songs == st.songs
    ensures GetSongInfo(st, env, group, song).response.Plain?
    ensures !env.connectFails && !env.groupFails && DetailFromApi(env.apiUrl, env.api).Failure? ==>
      GetSongInfo(st, env, group, song).response ==
      Plain(StatusInternalServerError, ApiFailureMessage(DetailFromApi(env.apiUrl, env.api).error))
    ensures !env.connectFails && !env.groupFails && DetailFromApi(env.apiUrl, env.api).Success? &&
            ParseDate(DetailFromApi(env.apiUrl, env.api).value.releaseDate).None? ==>
      GetSongInfo(st, env, group, song).response == Plain(StatusBadRequest, InvalidDateFormat)
    ensures !env.connectFails && !env.groupFails && DetailFromApi(env.apiUrl, env.api).Success? &&
            ParseDate(DetailFromApi(env.apiUrl, env.api).value.releaseDate).Some? && env.createFails ==>
      GetSongInfo(st, env, group, song).response == Plain(StatusInternalServerError, InternalError)
  {
    FreshGroupHasNoSongs(st, song);
  }

  /**
   * For a new pair that resolves, exactly one row is added: the API's text
   * and link with the parsed date. Without a matching file entry the
   * response repeats the API's detail, date text included.
   */
  lemma NewSongStored(st: Store, env: Env, group: string, song: string)
    requires Wf(st) && group != "" && song != "" && !Stored(st, group, song)
    requires !env.connectFails && !env.groupFails && !env.createFails
    requires DetailFromApi(env.apiUrl, env.api).Success?
    requires ParseDate(DetailFromApi(env.apiUrl, env.api).value.releaseDate).Some?
    ensures var o := GetSongInfo(st, env, group, song);
            var d := DetailFromApi(env.apiUrl, env.api).value;
            && |o.store.songs| == |st.songs| + 1
            && o.store.songs[..|st.songs|] == st.songs
            && o.store.songs[|st.songs|] == Song(st.nextSongId, o.store.groups[group], song,
                                                 ParseDate(d.releaseDate).value, d.text, d.link)
            && o.response == Json(StatusOK, Enrich(d, group, song, env.file))
  {
    var d := DetailFromApi(env.apiUrl, env.api).value;
    FreshGroupHasNoSongs(st, song);
    FormatParse(d.releaseDate);
  }

  /** The enrichment file only ever changes the response: the store comes out the same whatever the file says. */
  lemma OverrideNeverStored(st: Store, env1: Env, env2: Env, group: string, song: string)
    requires env1.(file := env2.file) == env2
    ensures GetSongInfo(st, env1, group, song).store == GetSongInfo(st, env2, group, song).store
    ensures GetSongInfo(st, env1, group, song).response.Json? <==> GetSongInfo(st, env2, group, song).response.Json?
  {
  }

  /** A successful response carries the file's entry exactly when it matches the request. */
  lemma OverrideOnMatch(st: Store, env: Env, group: string, song: string)
    requires GetSongInfo(st, env, group, song).response.Json?
    ensures Matches(env.file, group, song) ==> GetSongInfo(st, env, group, song).response.body == EntryDetail(env.file.entry)
    ensures !Matches(env.file, group, song) ==>
      GetSongInfo(st, env, group, song).response ==
      GetSongInfo(st, env.(file := Missing), group, song).response
  {
  }

  // ---------------------------------------------------------------------------
  // Repeating a request

  /** A request that succeeded gives the same answer again and writes nothing more: no duplicate rows. */
  lemma ResolveIdempotent(st: Store, env: Env, group: string, song: string)
    requires GetSongInfo(st, env, group, song).response.Json?
    ensures var o := GetSongInfo(st, env, group, song);
            GetSongInfo(o.store, env, group, song) == o
  {
    var o := GetSongInfo(st, env, group, song);
    var (st1, gid) := FindOrCreateGroup(st, group);
    if FindSong(st1.songs, gid, song).None? {
      var i := |st1.songs|;
      assert HasKey(o.store.songs[i], gid, song);
      FindSongAppended(st1.songs, o.store.songs[i], gid, song);
    }
  }

  /** Appending a row with the key to rows without it makes that row the first match. */
  lemma FindSongAppended(songs: seq<Song>, s: Song, groupId: nat, title: string)
    requires FindSong(songs, groupId, title).None? && HasKey(s, groupId, title)
    ensures FindSong(songs + [s], groupId, title) == Some(|songs|)
  {
    var t := songs + [s];
    assert t[|songs|] == s;
    assert forall j :: 0 <= j < |songs| ==> t[j] == songs[j];
  }

  /**
   * Removing the file afterwards brings back what was persisted: once a new
   * pair resolves, a later request with no matching entry answers with the
   * API's original detail, whatever the API says now.
   */
  lemma PersistedSurvivesOverride(st: Store, env1: Env, env2: Env, group: string, song: string)
    requires Wf(st) && group != "" && song != "" && !Stored(st, group, song)
    requires !env1.connectFails && !env1.groupFails && !env1.createFails
    requires DetailFromApi(env1.apiUrl, env1.api).Success?
    requires ParseDate(DetailFromApi(env1.apiUrl, env1.api).value.releaseDate).Some?
    requires !env2.connectFails && !env2.groupFails && !Matches(env2.file, group, song)
    ensures GetSongInfo(GetSongInfo(st, env1, group, song).store, env2, group, song).response ==
            Json(StatusOK, DetailFromApi(env1.apiUrl, env1.api).value)
  {
    NewSongStored(st, env1, group, song);
    var o := GetSongInfo(st, env1, group, song);
    var (st1, gid) := FindOrCreateGroup(st, group);
    FindSongAppended(st1.songs, o.store.songs[|st1.songs|], gid, song);
    assert o.store.songs == st1.songs + [o.store.songs[|st1.songs|]];
    FormatParse(DetailFromApi(env1.apiUrl, env1.api).value.releaseDate);
  }

  // ---------------------------------------------------------------------------
  // The store invariant

  lemma FindOrCreateKeepsWf(st: Store, name: string)
    requires Wf(st)
    ensures Wf(FindOrCreateGroup(st, name).0)
  {
    var st1 := FindOrCreateGroup(st, name).0;
    if name !in st.groups {
      forall i | 0 <= i < |st1.songs|
        ensures st1.songs[i].groupId in st1.groups.Values
      {
        assert st.songs[i].groupId in st.groups.Values;
        var n :| n in st.groups && st.groups[n] == st.songs[i].groupId;
        assert st1.groups[n] == st.songs[i].groupId;
      }
    }
  }

  lemma AppendKeepsWf(st: Store, s: Song)
    requires Wf(st) && s.id == st.nextSongId && s.groupId in st.groups.Values
    ensures Wf(st.(songs := st.songs + [s], nextSongId := st.nextSongId + 1))
  {
  }

  /** Resolving inside a known group keeps the store well formed. */
  lemma ResolveInGroupKeepsWf(st: Store, env: Env, gid: nat, group: string, song: string)
    requires Wf(st) && gid in st.groups.Values
    ensures Wf(ResolveInGroup(st, env, gid, group, song).store)
  {
    var o := ResolveInGroup(st, env, gid, group, song);
    if o.store != st {
      var d := DetailFromApi(env.apiUrl, env.api).value;
      var s := Song(st.nextSongId, gid, song, ParseDate(d.releaseDate).value, d.text, d.link);
      assert o.store == st.(songs := st.songs + [s], nextSongId := st.nextSongId + 1);
      AppendKeepsWf(st, s);
    }
  }

  /** Resolution keeps ids fresh and unique and every row attached to a known group. */
  lemma GetSongInfoKeepsWf(st: Store, env: Env, group: string, song: string)
    requires Wf(st)
    ensures Wf(GetSongInfo(st, env, group, song).store)
  {
    if group != "" && song != "" && !env.connectFails && !env.groupFails {
      var (st1, gid) := FindOrCreateGroup(st, group);
      FindOrCreateKeepsWf(st, group);
      assert gid in st1.groups.Values;
      ResolveInGroupKeepsWf(st1, env, gid, group, song);
    }
  }
}

=== FILE: verses.dfy ===
/**
 * The verse paginator behind `GET /song/:id/verses`: a song's text is split
 * into verses on the blank-line separator "\n\n" (Go's `strings.Split`), and
 * a page of `limit` verses is cut out of that list.
 */
module Verses {
  import opened Wrappers
  import Int64
  import Arith
  import Decimal
  import Query
  import opened Catalog

  const Separator: string := "\n\n"

  /** The separator starts at position `i` of `s`. */
  predicate SepAt(s: string, i: int) {
    0 <= i && i + 1 < |s| && s[i] == '\n' && s[i + 1] == '\n'
  }

  predicate NoSeparator(v: string) {
    forall i :: 0 <= i < |v| ==> !SepAt(v, i)
  }

  /** `strings.Index(s[from:], "\n\n")`, as a position in `s`: the leftmost separator at or after `from`. */
  function IndexFrom(s: string, from: nat): (r: Option<nat>)
    requires from <= |s|
    ensures r.Some? ==> from <= r.value && SepAt(s, r.value)
    ensures r.Some? ==> forall j :: from <= j < r.value ==> !SepAt(s, j)
    ensures r.None? ==> forall j :: from <= j ==> !SepAt(s, j)
    decreases |s| - from
  {
    if from + 1 >= |s| then None
    else if SepAt(s, from) then Some(from)
    else IndexFrom(s, from + 1)
  }

  /** `strings.Split(s, "\n\n")`: cut at each leftmost separator, keeping empty pieces. */
  function Split(s: string): (vs: seq<string>)
    ensures |vs| >= 1
    ensures forall k :: 0 <= k < |vs| ==> NoSeparator(vs[k])
    decreases |s|
  {
    match IndexFrom(s, 0)
    case None => [s]
    case Some(i) =>
      assert forall j :: 0 <= j < |s[..i]| ==> (SepAt(s[..i], j) ==> SepAt(s, j));
      [s[..i]] + Split(s[i + 2..])
  }

  /** `strings.Join(vs, "\n\n")`. */
  function Join(vs: seq<string>): string
    requires |vs| >= 1
  {
    if |vs| == 1 then vs[0] else vs[0] + Separator + Join(vs[1..])
  }

  /** Splitting never loses text: joining the verses gives the song text back. */
  lemma {:induction false} JoinSplit(s: string)
    ensures Join(Split(s)) == s
    decreases |s|
  {
    match IndexFrom(s, 0)
    case None =>
    case Some(i) =>
      JoinSplit(s[i + 2..]);
      assert Split(s)[1..] == Split(s[i + 2..]);
      assert s == s[..i] + Separator + s[i + 2..];
  }

  /** The lists `Split` produces: no verse holds a separator, and no verse but the last ends in a newline. */
  predicate WellSeparated(vs: seq<string>) {
    && |vs| >= 1
    && (forall k :: 0 <= k < |vs| ==> NoSeparator(vs[k]))
    && (forall k :: 0 <= k < |vs| - 1 ==> |vs[k]| == 0 || vs[k][|vs[k]| - 1] != '\n')
  }

  lemma {:induction false} SplitWellSeparated(s: string)
    ensures WellSeparated(Split(s))
    decreases |s|
  {
    match IndexFrom(s, 0)
    case None =>
    case Some(i) =>
      SplitWellSeparated(s[i + 2..]);
      var vs := Split(s);
      assert vs[1..] == Split(s[i + 2..]);
      if i > 0 {
        assert !SepAt(s, i - 1);
      }
  }

  /** A separator in `a + "\n\n" + b` sits at |a| when `a` has none and does not end in a newline. */
  lemma FirstSeparatorOfJoin(a: string, b: string)
    requires NoSeparator(a)
    requires |a| == 0 || a[|a| - 1] != '\n'
    ensures IndexFrom(a + Separator + b, 0) == Some(|a|)
  {
    var s := a + Separator + b;
    forall j | 0 <= j < |a|
      ensures !SepAt(s, j)
    {
      if j < |a| - 1 {
        assert !SepAt(a, j);
      }
    }
    IndexFromFirst(s, 0, |a|);
  }

  lemma {:induction false} IndexFromFirst(s: string, from: nat, k: nat)
    requires from <= k && SepAt(s, k)
    requires forall j :: from <= j < k ==> !SepAt(s, j)
    ensures IndexFrom(s, from) == Some(k)
    decreases k - from
  {
    if from < k {
      IndexFromFirst(s, from + 1, k);
    }
  }

  /** Conversely, `Split` takes apart exactly the lists it can produce. */
  lemma {:induction false} SplitJoin(vs: seq<string>)
    requires WellSeparated(vs)
    ensures Split(Join(vs)) == vs
    decreases |vs|
  {
    var s := Join(vs);
    if |vs| == 1 {
      assert IndexFrom(s, 0).None?;
    } else {
      var rest := Join(vs[1..]);
      FirstSeparatorOfJoin(vs[0], rest);
      assert s[|vs[0]| + 2..] == rest;
      assert s[..|vs[0]|] == vs[0];
      assert WellSeparated(vs[1..]) by {
        assert forall k :: 0 <= k < |vs| - 1 ==> vs[1..][k] == vs[k + 1];
      }
      SplitJoin(vs[1..]);
    }
  }

  /** Empty text is one empty verse. */
  lemma SplitEmpty()
    ensures Split("") == [""]
  {
  }

  // ---------------------------------------------------------------------------
  // Page arithmetic

  /** `(total + limit - 1) / limit`, the number of pages of `limit` verses. */
  function TotalPages(total: nat, limit: nat): (n: nat)
    requires limit >= 1
    ensures total >= 1 ==> n >= 1 && (n - 1) * limit < total <= n * limit
    ensures total == 0 ==> n == 0
  {
    var n := (total + limit - 1) / limit;
    Arith.DivBounds(total + limit - 1, limit);
    assert (n - 1) * limit == n * limit - limit;
    if n >= 1 then
      Arith.MulMonotone(1, n, limit);
      n
    else n
  }

  /** What the verses endpoint reports about a served page. */
  datatype PageSlice = PageSlice(total: nat, verses: seq<string>, totalPages: int)

  datatype PageError = NoVerses | PageOutOfRange

  /**
   * The slicing step of `GetSongTextWithPagination` once `page` and `limit`
   * have been coerced: no verses is "not found", a start at or past the end
   * is out of range, otherwise the verses `[start, min(start + limit, total))`
   * with `start = (page - 1) * limit`.
   */
  function Paginate(verses: seq<string>, page: int, limit: int): (r: Result<PageSlice, PageError>)
    requires page >= 1 && limit >= 1
    ensures |verses| == 0 <==> r == Failure(NoVerses)
    ensures r.Success? <==> Arith.PageStart(page, limit) < |verses|
    ensures r.Success? ==> r.value.total == |verses| && 1 <= |r.value.verses| <= limit
    ensures r.Success? ==> Arith.PageStart(page, limit) + |r.value.verses| <= |verses|
    ensures r.Success? ==> r.value.verses == verses[Arith.PageStart(page, limit) .. Arith.PageStart(page, limit) + |r.value.verses|]
    ensures r.Success? ==> |r.value.verses| == limit || Arith.PageStart(page, limit) + |r.value.verses| == |verses|
    ensures r.Success? ==> r.value.totalPages >= 1 && (r.value.totalPages - 1) * limit < |verses| <= r.value.totalPages * limit
  {
    var total := |verses|;
    if total == 0 then Failure(NoVerses)
    else
      var start := Arith.PageStart(page, limit);
      var end := start + limit;
      if start >= total then Failure(PageOutOfRange)
      else
        var end := if end > total then total else end;
        Success(PageSlice(total, verses[start..end], TotalPages(total, limit)))
  }

  /** Split text always has a verse, so the "no verses" branch of the endpoint is unreachable. */
  lemma NoVersesUnreachable(text: string, page: int, limit: int)
    requires page >= 1 && limit >= 1
    ensures Paginate(Split(text), page, limit) != Failure(NoVerses)
  {
  }

  /** A page is served exactly when its number is at most the reported page count. */
  lemma ServedIffWithinTotalPages(verses: seq<string>, page: int, limit: int)
    requires page >= 1 && limit >= 1
    ensures Paginate(verses, page, limit).Success? <==> page <= TotalPages(|verses|, limit)
  {
    var n := TotalPages(|verses|, limit);
    if page <= n {
      Arith.MulMonotone(page - 1, n - 1, limit);
    } else {
      Arith.MulMonotone(n, page - 1, limit);
    }
  }

  /** The verses of pages `page`, `page + 1`, ... up to the last served one, in order. */
  function PagesFrom(verses: seq<string>, limit: int, page: int): seq<string>
    requires page >= 1 && limit >= 1
    decreases |verses| - page + 1
  {
    match Paginate(verses, page, limit)
    case Failure(_) => []
    case Success(p) =>
      PageBelowStart(page, limit);
      p.verses + PagesFrom(verses, limit, page + 1)
  }

  lemma PageBelowStart(page: int, limit: int)
    requires page >= 1 && limit >= 1
    ensures page - 1 <= Arith.PageStart(page, limit)
  {
    Arith.MulMonotone(1, limit, page - 1);
  }

  lemma {:induction false} PagesFromSuffix(verses: seq<string>, limit: int, page: int)
    requires page >= 1 && limit >= 1
    requires Arith.PageStart(page, limit) <= |verses|
    ensures PagesFrom(verses, limit, page) == verses[Arith.PageStart(page, limit)..]
    decreases |verses| - page + 1
  {
    PageBelowStart(page, limit);
    var r := Paginate(verses, page, limit);
    if r.Success? {
      var start := Arith.PageStart(page, limit);
      var len := |r.value.verses|;
      Arith.PageStartStep(page, limit);
      if len < limit {
        assert Paginate(verses, page + 1, limit).Failure?;
        assert verses[start..] == r.value.verses;
      } else {
        PagesFromSuffix(verses, limit, page + 1);
        assert verses[start..] == verses[start..start + len] + verses[start + len..];
      }
    }
  }

  /** The verses of pages 1..`n`, in order. */
  function PagesUpTo(verses: seq<string>, limit: int, n: nat): seq<string>
    requires limit >= 1
  {
    if n == 0 then []
    else
      PagesUpTo(verses, limit, n - 1) +
      match Paginate(verses, n, limit)
      case Failure(_) => []
      case Success(p) => p.verses
  }

  lemma {:induction false} PagesUpToPrefix(verses: seq<string>, limit: int, n: nat)
    requires limit >= 1
    requires n <= TotalPages(|verses|, limit)
    ensures n >= 1 ==> Paginate(verses, n, limit).Success? && PagesUpTo(verses, limit, n) == verses[..Arith.PageStart(n, limit) + |Paginate(verses, n, limit).value.verses|]
    ensures n == 0 ==> PagesUpTo(verses, limit, n) == []
  {
    if n > 0 {
      ServedIffWithinTotalPages(verses, n, limit);
      var p := Paginate(verses, n, limit).value;
      var start := Arith.PageStart(n, limit);
      assert PagesUpTo(verses, limit, n) == PagesUpTo(verses, limit, n - 1) + p.verses;
      if n > 1 {
        PagesUpToPrefix(verses, limit, n - 1);
        EarlierPageEndsAtNext(verses, limit, n);
      }
      PrefixExtend(verses, start, |p.verses|);
    }
  }

  /** Every page before a served one is full, so it ends where the next one starts. */
  lemma EarlierPageEndsAtNext(verses: seq<string>, limit: int, n: nat)
    requires limit >= 1 && 1 < n <= TotalPages(|verses|, limit)
    ensures Paginate(verses, n - 1, limit).Success?
    ensures Arith.PageStart(n - 1, limit) + |Paginate(verses, n - 1, limit).value.verses| == Arith.PageStart(n, limit)
  {
    ServedIffWithinTotalPages(verses, n, limit);
    ServedIffWithinTotalPages(verses, n - 1, limit);
    Arith.PageStartStep(n - 1, limit);
  }

  lemma PrefixExtend(verses: seq<string>, start: nat, len: nat)
    requires start + len <= |verses|
    ensures verses[..start] + verses[start..start + len] == verses[..start + len]
  {
  }

  /**
   * Concatenating every page, first to last, gives back the whole verse list;
   * the pages run out exactly after `TotalPages` of them.
   */
  lemma AllPagesCoverVerses(verses: seq<string>, limit: int)
    requires limit >= 1
    ensures PagesFrom(verses, limit, 1) == verses
    ensures PagesUpTo(verses, limit, TotalPages(|verses|, limit)) == verses
  {
    PagesFromSuffix(verses, limit, 1);
    var n := TotalPages(|verses|, limit);
    PagesUpToPrefix(verses, limit, n);
    if n >= 1 {
      ServedIffWithinTotalPages(verses, n, limit);
      ServedIffWithinTotalPages(verses, n + 1, limit);
      Arith.PageStartStep(n, limit);
    }
  }

  /** Three paragraphs separated by blank lines are three verses... */
  lemma ThreeVerses()
    ensures Split("a\n\nb\n\nc") == ["a", "b", "c"]
  {
    var vs := ["a", "b", "c"];
    assert WellSeparated(vs);
    SplitJoin(vs);
    assert Join(vs) == "a\n\nb\n\nc";
  }

  /** ... served two per page: two pages, the second holding "c" alone. */
  lemma ThreeVersesTwoPerPage()
    ensures Paginate(["a", "b", "c"], 1, 2) == Success(PageSlice(3, ["a", "b"], 2))
    ensures Paginate(["a", "b", "c"], 2, 2) == Success(PageSlice(3, ["c"], 2))
    ensures Paginate(["a", "b", "c"], 3, 2) == Failure(PageOutOfRange)
  {
    var vs := ["a", "b", "c"];
    assert Paginate(vs, 1, 2) == Success(PageSlice(3, ["a", "b"], 2)) by {
      assert vs[0..2] == ["a", "b"];
    }
    assert Paginate(vs, 2, 2) == Success(PageSlice(3, ["c"], 2)) by {
      assert vs[2..3] == ["c"];
    }
  }

  // ---------------------------------------------------------------------------
  // The slicing step as written, in Go's 64-bit `int`

  /** How the Go code ends: a page, a 404, or a slice-bounds panic (answered 500 by gin's recovery). */
  datatype GoOutcome = Served(slice: PageSlice) | Rejected(error: PageError) | Panicked

  /** Go's integer division, which truncates toward zero. */
  function GoDiv(a: int, b: int): (q: int)
    requires b > 0
    ensures a >= 0 ==> 0 <= q && q * b <= a < q * b + b
    ensures a < 0 ==> q <= 0 && q * b - b < a <= q * b
  {
    if a >= 0 then
      Arith.DivBounds(a, b);
      a / b
    else
      var q := (-a) / b;
      Arith.DivBounds(-a, b);
      assert (-q) * b == -(q * b);
      -q
  }

  /**
   * Lines 300-328 of the handler with every `int` operation wrapping at 64
   * bits: `startIndex`, `endIndex` and `total_pages` can all overflow.
   */
  function PaginateInt64(verses: seq<string>, page: int, limit: int): (r: GoOutcome)
    requires 1 <= page <= Int64.MaxInt64 && 1 <= limit <= Int64.MaxInt64
    ensures r.Served? ==> r.slice.total == |verses|
  {
    var total := |verses|;
    if total == 0 then Rejected(NoVerses)
    else
      var start := Int64.Wrap((page - 1) * limit);
      var end := Int64.Wrap(start + limit);
      if start >= total then Rejected(PageOutOfRange)
      else
        var end := if end > total then total else end;
        if start < 0 || end < start then Panicked
        else Served(PageSlice(total, verses[start..end], GoDiv(Int64.Wrap(total + limit - 1), limit)))
  }

  /** Without overflow the 64-bit code and the model agree on every outcome. */
  lemma PaginateInt64Agrees(verses: seq<string>, page: int, limit: int)
    requires 1 <= page && 1 <= limit
    requires page * limit <= Int64.MaxInt64 && |verses| + limit <= Int64.MaxInt64
    ensures Paginate(verses, page, limit).Success? ==> PaginateInt64(verses, page, limit) == Served(Paginate(verses, page, limit).value)
    ensures Paginate(verses, page, limit).Failure? ==> PaginateInt64(verses, page, limit) == Rejected(Paginate(verses, page, limit).error)
  {
    Arith.MulMonotone(1, page, limit);
    Arith.MulMonotone(1, limit, page);
    assert Arith.PageStart(page, limit) + limit == page * limit;
  }

  /**
   * `?page=4294967297&limit=4294967296` on a one-verse song: (page - 1) * limit
   * is 2^64, which wraps to 0, so the whole song is served as a page far
   * beyond `total_pages`; the model answers 404.
   */
  lemma HugePageServedAsWritten()
    ensures PaginateInt64(["a"], 4294967297, 4294967296) == Served(PageSlice(1, ["a"], 1))
    ensures TotalPages(1, 4294967296) == 1
    ensures Paginate(["a"], 4294967297, 4294967296) == Failure(PageOutOfRange)
  {
    assert Int64.Wrap(4294967296 * 4294967296) == 0;
  }

  /** `?page=3&limit=9223372036854775807`: the start wraps to -2 and slicing panics. */
  lemma NegativeStartPanicsAsWritten()
    ensures PaginateInt64(["a"], 3, Int64.MaxInt64) == Panicked
    ensures Paginate(["a"], 3, Int64.MaxInt64) == Failure(PageOutOfRange)
  {
    assert Int64.Wrap(2 * Int64.MaxInt64) == -2;
  }

  /** `?limit=9223372036854775807` on two verses: `total + limit - 1` wraps and `total_pages` comes out as -1. */
  lemma NegativeTotalPagesAsWritten()
    ensures PaginateInt64(["a", "b"], 1, Int64.MaxInt64) == Served(PageSlice(2, ["a", "b"], -1))
    ensures Paginate(["a", "b"], 1, Int64.MaxInt64) == Success(PageSlice(2, ["a", "b"], 1))
  {
    assert Int64.Wrap(2 + Int64.MaxInt64 - 1) == Int64.MinInt64;
    assert ["a", "b"][0..2] == ["a", "b"];
  }

  // ---------------------------------------------------------------------------
  // The endpoint

  /** The JSON body of a served page. */
  datatype VersePage = VersePage(songId: int, page: int, limit: int, total: nat, verses: seq<string>, totalPages: int)

  /** The page holds the verses of `verses` from the page's first index on, in order. */
  predicate ServedFrom(p: VersePage, verses: seq<string>)
    requires p.page >= 1 && p.limit >= 1
  {
    && p.total == |verses|
    && Arith.PageStart(p.page, p.limit) + |p.verses| <= |verses|
    && p.verses == verses[Arith.PageStart(p.page, p.limit) .. Arith.PageStart(p.page, p.limit) + |p.verses|]
  }

  const SongNotFound: string := "not found"
  const PageNotFound: string := "no verses found for the requested page"

  /**
   * The endpoint once song `id` has been loaded with text `text`: coerce
   * `page` (default "1", fallback 1) and `limit` (default "1", fallback 1),
   * then slice.
   */
  function ServeSong(id: int, text: string, pageQ: Option<string>, limitQ: Option<string>): (r: Response<VersePage>)
    ensures r.Json? <==> Query.PositiveOr(pageQ, "1", 1) <= TotalPages(|Split(text)|, Query.PositiveOr(limitQ, "1", 1))
    ensures r.Plain? ==> r.status == StatusNotFound && r.message == PageNotFound
    ensures r.Json? ==> r.status == StatusOK && r.body.songId == id
    ensures r.Json? ==> r.body.page == Query.PositiveOr(pageQ, "1", 1) && r.body.limit == Query.PositiveOr(limitQ, "1", 1)
    ensures r.Json? ==> 1 <= |r.body.verses| <= r.body.limit && r.body.page <= r.body.totalPages
    ensures r.Json? ==> ServedFrom(r.body, Split(text)) && r.body.totalPages == TotalPages(r.body.total, r.body.limit)
    ensures r.Json? ==> |r.body.verses| == r.body.limit || Arith.PageStart(r.body.page, r.body.limit) + |r.body.verses| == r.body.total
  {
    var page := Query.PositiveOr(pageQ, "1", 1);
    var limit := Query.PositiveOr(limitQ, "1", 1);
    var verses := Split(text);
    ServedIffWithinTotalPages(verses, page, limit);
    match Paginate(verses, page, limit)
    case Failure(NoVerses) => Plain(StatusNotFound, SongNotFound)
    case Failure(PageOutOfRange) => Plain(StatusNotFound, PageNotFound)
    case Success(p) =>
      var body := VersePage(id, page, limit, p.total, p.verses, p.totalPages);
      assert ServedFrom(body, verses);
      Json(StatusOK, body)
  }

  /**
   * `GetSongTextWithPagination`: parse the id, connect, load the row by id,
   * coerce `page` (default "1", fallback 1) and `limit` (default "1",
   * fallback 1), then slice. `connectFails` stands for a failed database
   * connection.
   */
  function GetSongTextWithPagination(store: Store, connectFails: bool, idParam: string,
                                     pageQ: Option<string>, limitQ: Option<string>): (r: Response<VersePage>)
    ensures Decimal.Atoi(idParam).None? ==> r == Plain(StatusBadRequest, "invalid song id")
    ensures (r.Plain? && r.status == StatusBadRequest) <==> Decimal.Atoi(idParam).None?
    ensures Decimal.Atoi(idParam).Some? && connectFails ==> r == Plain(StatusInternalServerError, InternalError)
    ensures Decimal.Atoi(idParam).Some? && !connectFails && FindById(store.songs, Decimal.Atoi(idParam).value).None? ==>
      r == Plain(StatusNotFound, SongNotFound)
    ensures Decimal.Atoi(idParam).Some? && !connectFails && FindById(store.songs, Decimal.Atoi(idParam).value).Some? && r.Plain? ==>
      r == Plain(StatusNotFound, PageNotFound)
    ensures Decimal.Atoi(idParam).Some? && !connectFails && FindById(store.songs, Decimal.Atoi(idParam).value).Some? ==>
      (r.Json? <==> Query.PositiveOr(pageQ, "1", 1) <= TotalPages(|Split(store.songs[FindById(store.songs, Decimal.Atoi(idParam).value).value].text)|, Query.PositiveOr(limitQ, "1", 1)))
    ensures r.Json? ==> !connectFails && Decimal.Atoi(idParam).Some? && r.body.songId == Decimal.Atoi(idParam).value
    ensures r.Json? ==> r.body.page == Query.PositiveOr(pageQ, "1", 1) && r.body.limit == Query.PositiveOr(limitQ, "1", 1)
    ensures r.Json? ==> FindById(store.songs, r.body.songId).Some? && ServedFrom(r.body, Split(store.songs[FindById(store.songs, r.body.songId).value].text))
    ensures r.Json? ==> r.body.totalPages == TotalPages(r.body.total, r.body.limit)
    ensures r.Json? ==> r.status == StatusOK && r.body.page >= 1 && r.body.limit >= 1
    ensures r.Json? ==> 1 <= |r.body.verses| <= r.body.limit && r.body.page <= r.body.totalPages
    ensures r.Json? ==> |r.body.verses| == r.body.limit || Arith.PageStart(r.body.page, r.body.limit) + |r.body.verses| == r.body.total
    ensures r.Plain? ==> r.status in {StatusBadRequest, StatusNotFound, StatusInternalServerError}
  {
    match Decimal.Atoi(idParam)
    case None => Plain(StatusBadRequest, "invalid song id")
    case Some(id) =>
      if connectFails then Plain(StatusInternalServerError, InternalError)
      else
        match FindById(store.songs, id)
        case None => Plain(StatusNotFound, SongNotFound)
        case Some(i) => ServeSong(id, store.songs[i].text, pageQ, limitQ)
  }

  /** Bad `page` and `limit` values are coerced, never rejected: page 1 of any stored song is always served. */
  lemma FirstPageAlwaysServed(store: Store, idParam: string, pageQ: Option<string>, limitQ: Option<string>, i: nat)
    requires Decimal.Atoi(idParam).Some? && i < |store.songs|
    requires FindById(store.songs, Decimal.Atoi(idParam).value) == Some(i)
    requires Query.PositiveOr(pageQ, "1", 1) == 1
    ensures GetSongTextWithPagination(store, false, idParam, pageQ, limitQ).Json?
  {
  }

  /** A served page never contains a separator, so each returned verse is a whole paragraph. */
  lemma ServedVersesAreParagraphs(store: Store, idParam: string, pageQ: Option<string>, limitQ: Option<string>)
    requires GetSongTextWithPagination(store, false, idParam, pageQ, limitQ).Json?
    ensures forall k :: 0 <= k < |GetSongTextWithPagination(store, false, idParam, pageQ, limitQ).body.verses| ==>
      NoSeparator(GetSongTextWithPagination(store, false, idParam, pageQ, limitQ).body.verses[k])
  {
  }
}

=== FILE: wrappers.dfy ===
/** Option and Result values used for the oracle inputs and error paths of the model. */
module Wrappers {

  /** A value that may be missing. */
  datatype Option<+T> = None | Some(value: T) {

    /** The carried value, or `default` when there is none. */
    function GetOr(default: T): T {
      match this
      case Some(v) => v
      case None => default
    }
  }

  /** A successful value or an error. */
  datatype Result<+T, +E> = Success(value: T) | Failure(error: E) {

    /** The successful value, or `default` on failure. */
    function GetOr(default: T): T {
      match this
      case Success(v) => v
      case Failure(_) => default
    }
  }
}
